=== FILE: README.md ===
# Lead allocation engine — a Dafny model

The allocation engine of the lead-allocation simulator (`src/AllocationUtils.js`)
assigns a sequence of sales leads, in arrival order, to a table of course
advisors (CAs). It uses one of four policies:

- **round robin**: the least recently allocated advisor of the lead's
  portfolio takes the lead, with advisors in working hours preferred;
- **most suitable, aggressive**: advisors in working hours first, then the
  highest propensity (predicted conversion of this lead with this
  advisor), then the lowest live allotment;
- **most suitable, fixed allotment tolerance**: advisors in working hours
  first, then those whose decayed allotment is less than `tolerance` above
  the lowest, then least over, then propensity, then allotment;
- **most suitable, proportional allotment tolerance**: the same, with the
  cap `lowest + lowest * tolerance / 100`.

Each pass is a fold over the leads. The three most-suitable passes narrow
the advisor table to the lead's portfolio for every lead
(`isMatchingPortfolio`); round robin instead keeps one queue of Domestic
and one of Canada advisors, built once before the loop. Every pass reads
each candidate advisor's working-hours flag from the `TIMEZONES` table
(`isInWorkingHours`), ranks the candidates and commits the head of the
ranking: the lead records the advisor, and that advisor's
`currentAllotment` goes up by one.

Module layout:

| module | file | contents |
|---|---|---|
| `Outcomes` | outcomes.dfy | `Option` and `Result`; every way the source throws becomes a `Failure` case |
| `Calendar` | calendar.dfy | the `TIMEZONES` table and the working-hours predicate on minute timestamps |
| `Records` | records.dfy | advisor and lead records, `PORTFOLIOS`, the commit, and the conservation predicates every pass keeps |
| `Decay` | decay.dfy | calendar days since the first lead and the decayed allotment |
| `Ranking` | ranking.dfy | the comparator chains as they are written, the lexicographic keys they agree with, and the head of a stable sort |
| `CursorSort` | cursor_sort.dfy | the stable sort of a round-robin queue by cursor |
| `MostSuitable` | most_suitable.dfy | the three most-suitable passes as one fold with a policy parameter |
| `RoundRobin` | round_robin.dfy | the round-robin pass, its loop invariant and its fairness properties |

Representation choices:

- **Time.** A timestamp is a whole number of minutes since an epoch at
  00:00 on a Sunday of the Adelaide clock. The hour of day becomes
  `t % 1440`, the weekday `(t / 1440) % 7` and the start of the day
  `t / 1440`. The Canada hours 22.5, 6.5 and 13.5 become 1350, 390 and 810
  minutes.
- **Numbers.** Allotments, propensities, tolerances and decay rates are `real`.
- **Identity.** An advisor's id is its index in the table (`WellIndexed`),
  because the source looks advisors up by id in the table and in each
  lead's propensity map.
- **Ties.** The sort is stable and every comparator is a total preorder.
  So the advisor at the head of a sorted list is the first one, in table
  order, whose lexicographic key is least (`Ranking.FirstLeast`).
- **Errors.** Where the source throws a `TypeError` (no advisor to pick, an
  unknown portfolio in round robin, a location missing from `TIMEZONES`, a
  lead without a propensity entry for an eligible advisor, `leads[0]` of
  an empty lead list in the tolerance modes), the model returns `Err`
  with a `Failure` naming the cause.

## Model

| member | source | states |
|---|---|---|
| Calendar.TimezoneOf | src/AllocationUtils.js:59-70 | Exactly Adelaide and Canada have an entry, and both windows lie within one day. |
| Calendar.IsInWorkingHours | src/AllocationUtils.js:305-325 | Undefined exactly for a location outside the table; otherwise true iff the advisor's local weekday is Monday to Friday and the minute of day lies in the inclusive window, which runs through midnight when its end is not after its start. |
| Calendar.InHours | src/AllocationUtils.js:305-324 | For a window within one day, the source's shifted-end, shifted-hour comparison agrees with the plain meaning. Weekends are closed and the window is inclusive. A wrapped window is open at or after its start or at or before its end. |
| Calendar.AdelaideSchedule | src/AllocationUtils.js:60-64 | Adelaide is in hours exactly Monday to Friday from 9:00 to 17:00, both ends included. |
| Calendar.CanadaKeepsAdelaideScheduleLocally | src/AllocationUtils.js:65-69 | Canada's wrapped window, read on the Adelaide clock, is the same 9:00 to 17:00 weekday schedule kept on a clock 13.5 hours behind. |
| Records.IsMatchingPortfolio | src/AllocationUtils.js:301-303 | An advisor is eligible for a lead exactly when their portfolio strings are equal. Both passes use this one test: the most-suitable candidates and round robin's `Eligible` are defined through it, and `RoundRobin.QueueMembers` proves the re-sorted queue holds exactly the advisors it admits. |
| Records.Commit | src/AllocationUtils.js:148-150 | Committing a lead raises the selected advisor's live allotment by one and leaves every other advisor, and the selected advisor's other fields, as they were. |
| Records.CommitAddsOne | src/AllocationUtils.js:217-219 | A commit raises the sum of all live allotments by exactly one. |
| Records.ConservesStep | src/AllocationUtils.js:288-290 | Committing one more lead to an advisor of its portfolio extends the conservation facts from the leads before it to all the leads. |
| Decay.DaysFromStart | src/AllocationUtils.js:167-172 | A lead falls on the d-th calendar day after the first lead's day: it lies at or after the start of that day and before the start of the next. For a lead no earlier than the first, d is not negative. |
| Decay.DaysFromStartShift | src/AllocationUtils.js:167-172 | A lead k days later is k more days from the start, and a lead on the first lead's day is zero days from it. |
| Decay.Decayed | src/AllocationUtils.js:178 | The decayed allotment is never negative, never below the linearly reduced allotment, and equals it unless it is floored at zero. |
| Decay.DecayComposes | src/AllocationUtils.js:247 | With a non-negative rate, decaying by `d1` days and then `d2` more equals decaying by `d1 + d2` days. |
| Decay.DecayMonotone | src/AllocationUtils.js:172-178 | With a non-negative decay rate, more elapsed days never raise the decayed allotment, and one more committed lead raises it by between zero and one. |
| Ranking.LessIsStrictTotalOrder | src/AllocationUtils.js:132-146 | The lexicographic key order is irreflexive, transitive and total, so a comparator that agrees with it is a total preorder. |
| Ranking.FirstLeast | src/AllocationUtils.js:148 | The head of a stable sort: no key is below it, and every earlier key is strictly above it. |
| Ranking.AggressiveCompare | src/AllocationUtils.js:132-146 | The aggressive comparator is negative exactly when the first advisor's key (off hours, negated propensity, allotment) is lexicographically smaller, and positive exactly when it is larger. |
| Ranking.SelectAggressive | src/AllocationUtils.js:132-148 | The head is in hours if anyone is. It has the highest propensity of its hours class and the lowest allotment among those, and no earlier advisor ties it on all three. It is the only advisor meeting this description. |
| Ranking.FixedCompare | src/AllocationUtils.js:190-215 | The fixed-tolerance comparator agrees in sign with the key (off hours, outside tolerance, then propensity and allotment inside the tolerance or allotment and propensity outside it). |
| Ranking.ProportionalCompare | src/AllocationUtils.js:261-286 | The proportional comparator agrees in sign with the same key, with "within" meaning strictly below the cap. |
| Ranking.SelectCapped | src/AllocationUtils.js:190-217 | The head is in hours if anyone is and within the cap if anyone of its hours class is. If within, it has the top propensity (then least allotment) of its class within the cap; if over, the least allotment (then top propensity) of its class. No earlier advisor ties it, and it is the only advisor meeting this description. |
| CursorSort.Sort | src/AllocationUtils.js:92-96 | Sorting a queue by cursor gives a permutation ordered by cursor in which advisors with equal cursors keep their relative order. |
| MostSuitable.Candidates | src/AllocationUtils.js:120-130 | Succeeds exactly when every advisor of the lead's portfolio has a known location and a propensity entry. It then lists every such advisor once, in table order, with its hours flag, propensity and allotment. |
| MostSuitable.Describe | src/AllocationUtils.js:120-130 | An advisor of the lead's portfolio can be read exactly when its location is in the timezone table and the lead has a propensity entry for it; it is then described by its own hours flag, propensity and live allotment. |
| MostSuitable.WithDecay | src/AllocationUtils.js:176-178 | Each eligible advisor's allotment is replaced by its decayed value and nothing else changes. |
| MostSuitable.ProportionalCap | src/AllocationUtils.js:259 | With a non-negative floor and tolerance the cap is not below the lowest allotment, and with both positive it lies strictly above it, so the least loaded advisor is within the cap. A zero floor gives a zero cap, and a tolerance of 100 percent doubles the floor. |
| MostSuitable.LowestAllotment | src/AllocationUtils.js:171-180 | The running minimum is at most every decayed allotment and is attained by one of them, unless all exceed the safe-integer seed. |
| MostSuitable.FixedToleranceBound | src/AllocationUtils.js:199-208 | With a positive tolerance and everyone in one hours class, the winner's decayed allotment is less than the tolerance above the lowest. |
| MostSuitable.ProportionalZeroFloor | src/AllocationUtils.js:259-285 | When the lowest decayed allotment is zero, nobody is below the cap, so the winner has the least allotment of its hours class and propensity only breaks ties. |
| MostSuitable.Choose | src/AllocationUtils.js:174-219 | A selection exists exactly when the candidates are readable and some advisor is eligible. An empty eligible set is an error. The selected advisor belongs to the lead's portfolio. |
| MostSuitable.ChooseIsPolicyWinner | src/AllocationUtils.js:132-148 | The selected advisor is the head of the policy's order: the aggressive choice, or the tolerance choice over the decayed allotments with the policy's cap. |
| MostSuitable.ChooseOk | src/AllocationUtils.js:120-130 | A policy's selection for a lead succeeds exactly when some advisor is of the lead's portfolio and every such advisor has a known location and a propensity entry. |
| MostSuitable.ServableKept | src/AllocationUtils.js:148-150 | Whether a lead can be served does not change as a pass commits leads, because a commit touches only allotments. |
| MostSuitable.RunUpTo | src/AllocationUtils.js:118-151 | The fold over the first n leads returns one lead per input lead, each equal to its input except that it now has an allocated advisor, and a table of the same size. |
| MostSuitable.RunOk | src/AllocationUtils.js:118-151 | The fold over the first n leads succeeds exactly when each of them can be served on the starting table. |
| MostSuitable.RunConserves | src/AllocationUtils.js:118-151 | After any number of leads, each lead has exactly one advisor of its own portfolio. Each advisor's allotment grew by the number of leads it took, and the total grew by the number of leads. |
| MostSuitable.RunPrefix | src/AllocationUtils.js:169-220 | A later lead never changes how an earlier lead was allocated. |
| MostSuitable.EachLeadIsSelected | src/AllocationUtils.js:238-291 | The i-th lead goes to the selection made on the advisor table as the leads before it left it. |
| MostSuitable.EachLeadIsPolicyChoice | src/AllocationUtils.js:169-219 | The i-th lead goes to the policy's choice on the table left by the earlier leads, with decay counted in days since the first lead's day. |
| MostSuitable.RunTable | src/AllocationUtils.js:148-150 | The table a pass carries is the starting table with each advisor's allotment raised by the number of leads it took so far, and nothing else changed. |
| MostSuitable.PassChoosesEachLead | src/AllocationUtils.js:118-151 | A successful pass gives each lead to the head of the policy's order of the eligible advisors, on the starting table plus the allotments of the earlier leads. |
| MostSuitable.Pass | src/AllocationUtils.js:238-297 | The pass succeeds exactly when every lead can be served: its portfolio has an advisor, and every such advisor has a known location and a propensity entry. A successful pass conserves allotments and respects portfolios. Its advisor table is the starting one with only the allotments raised, so cursors, portfolios and locations are unchanged. |
| MostSuitable.AllocateAggressive | src/AllocationUtils.js:114-158 | No leads leave the advisors untouched. The pass succeeds exactly when every lead can be served (its portfolio has an advisor, each with a known location and a propensity entry); otherwise the source throws. A successful pass leaves every advisor field but the allotment unchanged. It allocates every lead once, within its portfolio, and raises allotments by exactly the leads taken. Each lead goes to the aggressive head (in hours, then highest propensity, then lowest allotment) on the table left by the earlier leads. |
| MostSuitable.AllocateFixedTolerance | src/AllocationUtils.js:161-227 | No leads is an error (the first lead's date is read). Otherwise it succeeds exactly when every lead can be served, and then behaves as the aggressive pass does, except that each lead goes to the fixed-tolerance head over the decayed allotments, counting days from the first lead's day. |
| MostSuitable.AllocateProportionalTolerance | src/AllocationUtils.js:230-298 | No leads is an error. Otherwise it succeeds exactly when every lead can be served, leaves every advisor field but the allotment unchanged, and gives each lead to the proportional-tolerance head, with the tolerance parameter read as a percentage and days counted from the first lead's day. |
| RoundRobin.ResetCursors | src/AllocationUtils.js:75-79 | Every advisor is kept, except that its cursor becomes the reset value (-1, `NeverAllocated`, in the source pass). |
| RoundRobin.PortfolioIndices | src/AllocationUtils.js:81-86 | The queue holds exactly the advisors of the portfolio, in table order. |
| RoundRobin.Start | src/AllocationUtils.js:74-86 | The pass starts with every cursor at the reset value, no leads, and queues that hold exactly the Domestic and the Canada advisors. |
| RoundRobin.HoursFlags | src/AllocationUtils.js:98 | Succeeds exactly when every queued advisor's location is in the timezone table, and then gives each one's working-hours flag. |
| RoundRobin.Choice | src/AllocationUtils.js:98-99 | Picks the first advisor in working hours if there is one; nobody before the pick is in hours; when nobody is in hours the pick is the head. |
| RoundRobin.QueueFor | src/AllocationUtils.js:90-96 | Only Domestic and Canada leads have a queue; any other portfolio is an error. The queue returned holds exactly the advisors of the lead's own portfolio. |
| RoundRobin.PickAdvisor | src/AllocationUtils.js:90-99 | A lead outside Domestic and Canada, or with no advisor of its portfolio, gets no pick. Otherwise the pick is of the lead's portfolio and in working hours if any advisor of the portfolio is; it then holds the least cursor among those in hours, and if it is out of hours it holds the least cursor of the whole portfolio. The queue returned is the lead's queue stably re-sorted by cursor. |
| RoundRobin.ChosenIsLeastRecent | src/AllocationUtils.js:92-99 | The first in-hours advisor of the queue sorted by cursor, or its head when nobody is in hours, is the least recently served advisor of the portfolio, preferring those in hours. |
| RoundRobin.PickAdvisorSelects | src/AllocationUtils.js:90-99 | Any portfolio other than Domestic or Canada is an error, as is a portfolio with no advisor. The winner is in the lead's portfolio and in hours if anyone eligible is. It has the least cursor among the eligible advisors in hours, or among all eligible advisors if it is out of hours. |
| RoundRobin.PickAdvisorQueue | src/AllocationUtils.js:92-99 | The queue is stably re-sorted by cursor. The winner comes before every advisor in hours of the re-sorted queue, is in hours when anyone queued is, and is the head when nobody is. |
| RoundRobin.PickAdvisorSucceeds | src/AllocationUtils.js:81-99 | Picking fails exactly when the lead's portfolio is neither Domestic nor Canada, has no advisor, or has an advisor whose location is not in the timezone table. |
| RoundRobin.Stamp | src/AllocationUtils.js:101-103 | The winner's cursor becomes the lead's id and its allotment rises by one; nothing else changes. |
| RoundRobin.Step | src/AllocationUtils.js:88-104 | A lead is allocated exactly when an advisor can be picked. The lead is appended, allocated to the pick, and the pick's cursor becomes the lead's id while its allotment rises by one. |
| RoundRobin.Loop | src/AllocationUtils.js:88-104 | After the loop every lead has exactly one advisor of its portfolio and the allotments add up. Each advisor's cursor is the id of its last lead, or the reset value. |
| RoundRobin.LoopSucceeds | src/AllocationUtils.js:88-104 | The loop succeeds exactly when every lead can be placed. |
| RoundRobin.EachLeadIsPicked | src/AllocationUtils.js:88-103 | Lead i goes to the advisor picked on the run the leads before it left, and the later leads do not change the earlier ones. |
| RoundRobin.LoopPicksLeastRecent | src/AllocationUtils.js:88-103 | Every lead goes to an advisor of its portfolio. That advisor is in hours if anyone of the portfolio is, and holds the least cursor among the in-hours advisors, or among all of them if it is out of hours. The cursors are those the earlier leads left. |
| RoundRobin.AllocateRoundRobin | src/AllocationUtils.js:73-111 | Succeeds exactly when every lead can be placed. Each lead then goes to an advisor of its portfolio, in hours if anyone of the portfolio is. That advisor holds the least cursor, taken from the ids of each advisor's last earlier lead or -1, among those in hours (or among all, if it is out of hours). Allotments are conserved, the cursors end as the ids of each advisor's last lead, and with no leads every cursor is -1. |
| RoundRobin.LastLeadIdIsSomeLead | src/AllocationUtils.js:101 | An advisor that took no lead keeps the reset cursor, and otherwise its cursor is the id of a lead it took. |
| RoundRobin.NoRepeatBeforeAllServed | src/AllocationUtils.js:92-101 | Take any allocation where each lead goes to an advisor holding the least cursor of the portfolio, and every lead id lies above the reset cursor. Then no advisor takes a second lead before every advisor of the portfolio has taken one. |
| RoundRobin.BalancedCounts | src/AllocationUtils.js:92-101 | In any such least-cursor allocation with increasing lead ids above the reset cursor, any two advisors' lead counts differ by at most one. |
| RoundRobin.SteadyShiftGivesLeastCursorTrace | src/AllocationUtils.js:88-103 | When every lead is of one portfolio and all its advisors are in working hours, an allocation that picks as round robin does gives each lead to an advisor holding the least cursor of the portfolio. |
| RoundRobin.RoundRobinServesAllBeforeRepeat | src/AllocationUtils.js:88-103 | With one portfolio, everyone in hours and no negative lead id, round robin serves every advisor of the portfolio once before it serves any of them twice. |
| RoundRobin.RoundRobinBalances | src/AllocationUtils.js:88-103 | With one portfolio, everyone in hours and increasing lead ids none of which is negative, round robin's lead counts for any two advisors differ by at most one. |
| RoundRobin.NegativeIdRepeatsBeforeAllServed | src/AllocationUtils.js:75-79 | Two advisors of one portfolio, both in hours for two leads, with a first lead id below -1: the first advisor picked takes both leads and the other takes none. |
| RoundRobin.NegativeIdExample | src/AllocationUtils.js:75-79 | Two Domestic advisors in Adelaide and two Domestic leads at 10:00 on a Monday, with ids -5 and -4, meet that lemma's hypotheses. |
| RoundRobin.FreshBelow | src/AllocationUtils.js:75-79 | The corrected reset cursor lies below every lead id, and it is -1 when no id is negative. |
| RoundRobin.AllocateRoundRobinFreshFirst | src/AllocationUtils.js:73-111 | The corrected pass succeeds exactly when every lead can be placed, conserves allotments, respects portfolios, and picks each lead as round robin does from the corrected reset cursor. |
| RoundRobin.FreshFirstAgrees | src/AllocationUtils.js:75-79 | When no lead id is negative, the corrected pass gives the same result as the source pass. |
| RoundRobin.FreshFirstServesAllBeforeRepeat | src/AllocationUtils.js:88-103 | With the corrected reset, one portfolio and everyone in hours, every advisor is served once before any is served twice, whatever the sign of the ids. |
| RoundRobin.FreshFirstBalances | src/AllocationUtils.js:88-103 | With the corrected reset, one portfolio, everyone in hours and increasing ids of any sign, lead counts differ by at most one. |
| RoundRobin.FreshFirstServesBothAdvisors | src/AllocationUtils.js:88-103 | In the two-advisor setting of the negative-id lemma, the corrected pass gives the two leads to different advisors, one each. |

## Left out

- The React user interface and CSV reading (`LocalFileReader.js`, `ResultsPanel.js`, `ConfigPanel.js`, `LeadAllocationHome.js`) are not part of this model: they render and load data and hold no allocation logic.
- moment.js time zones, daylight saving and seconds are not modelled. A timestamp is a whole minute on one fixed reference clock, and a day is 1440 minutes.
- JavaScript aliasing is not modelled. Every pass copies the lead array shallowly and writes `allocatedCa` into the caller's lead objects. The most-suitable passes copy the advisor array shallowly too, so they raise the caller's advisors' allotments in place. Round robin instead copies each advisor object (src/AllocationUtils.js:75-79), so the caller's advisors are left untouched. The model returns new sequences in every case.
- The parameter vector is not modelled. Each pass takes named `tolerance` and `decayPerDay` arguments; the proportional mode reads the fixed mode's parameter positions, which coincide.
- `NaN`, `undefined` and non-numeric values are not modelled. Among them is a propensity entry that exists but has no `propensity` field, which JavaScript compares as `NaN`.
- Keys inherited from the object prototype are not looked up in `TIMEZONES`; only "Adelaide" and "Canada" have entries.
- Engine-specific sort behaviour is not modelled: the sort is taken to be stable, as ECMAScript 2019 requires.
- `WellIndexed`: the source looks advisors up by id, and the model requires each id to equal its index in the table instead of modelling a lookup miss.
- MostSuitable.FixedToleranceBound: assumes every candidate is in the same hours class and below the safe-integer seed. The general case (within tolerance whenever anyone of the winner's class is) is stated by Ranking.SelectCapped.
- RoundRobin.RoundRobinServesAllBeforeRepeat: proved only when every lead is of one portfolio and all its advisors are always in working hours, the setting in which round robin promises fairness; with advisors off duty the in-hours preference can serve one advisor repeatedly.
- RoundRobin.RoundRobinServesAllBeforeRepeat and RoundRobin.RoundRobinBalances: proved only for lead ids that are not negative; at or below -1 the source pass breaks both (see Findings), and the statements for ids of any sign are proved of the corrected pass.
- Decay is recomputed for each lead from the live allotment and the days since the first lead; only `currentAllotment` changes, and the aggressive tiebreak compares `currentAllotment`. No per-advisor decay modifier, stored decay cursor or second allotment field exists in `src/AllocationUtils.js`, so none is modelled.
- Floating point is not modelled. Allotments, propensities, tolerances, caps and decayed values are exact reals, so a tolerance or cap test at a rounding edge can go the other way from IEEE doubles: in JavaScript `0.3 - 0.1 < 0.2` is true (exactly, 0.2 < 0.2 is false), and the cap `1 + 1 * 14 / 100` is 1.1400000000000001 rather than 1.14.
- Lead ids are unbounded integers, and the subtraction in the cursor comparator is exact; JavaScript's doubles lose precision beyond 2^53.

## Findings

| source | as written | input that shows it | evidently intended | confidence | as-written member | corrected member |
|---|---|---|---|---|---|---|
| src/AllocationUtils.js:75-79 | Every cursor is reset to -1 so that advisors who have taken no lead sort first; a taken lead's id becomes the cursor (line 101). A lead id at or below -1 gives its advisor a cursor at or below the never-allocated -1: below it, the advisor sorts first outright; at -1 it ties with the advisors still unserved, and the stable in-place sort (line 92) leaves the queue as it was, so the same advisor is chosen again. | Two Domestic advisors in Adelaide and two Domestic leads with ids -5 and -4 at 10:00 on a Monday: the advisor who takes -5 then holds cursor -5 < -1 and takes -4 as well, while the other, equally in hours, takes none. | An advisor that has taken no lead sorts before every advisor that has, whatever the ids, so round robin serves everyone once before anyone twice. | not executed | RoundRobin.AllocateRoundRobin, with RoundRobin.NegativeIdRepeatsBeforeAllServed and RoundRobin.NegativeIdExample | RoundRobin.AllocateRoundRobinFreshFirst, with RoundRobin.FreshFirstServesAllBeforeRepeat, RoundRobin.FreshFirstBalances, RoundRobin.FreshFirstServesBothAdvisors and RoundRobin.FreshFirstAgrees |

Both round-robin passes are kept. `AllocateRoundRobin` is the pass as written. The fairness statements for lead ids of any sign are proved of `AllocateRoundRobinFreshFirst`, which gives the same result whenever no id is negative (`FreshFirstAgrees`).

=== FILE: calendar.dfy ===
/** The working-hours calendar.  A timestamp is a whole number of minutes
    since an epoch that falls at 00:00 on a Sunday of the reference clock
    (Adelaide time); hours are minutes of the day. */
module Calendar {
  import opened Outcomes

  const MinutesPerDay: int := 1440
  const DaysPerWeek: int := 7
  const Sunday: int := 0
  const Saturday: int := 6

  /** Business hours of one location, read on the reference clock, and how
      far that location's clock lags behind the reference clock. */
  datatype Timezone = Timezone(startMinute: int, endMinute: int, offsetMinutes: int)

  /** 9:00 to 17:00, no offset. */
  const AdelaideHours: Timezone := Timezone(9 * 60, 17 * 60, 0)
  /** 22:30 to 6:30 on the reference clock, a window that wraps past
      midnight, for a clock 13.5 hours behind. */
  const CanadaHours: Timezone := Timezone(22 * 60 + 30, 6 * 60 + 30, 13 * 60 + 30)

  /** Both ends of the window are minutes of one day. */
  predicate WellFormed(tz: Timezone) {
    0 <= tz.startMinute <= MinutesPerDay && 0 <= tz.endMinute <= MinutesPerDay
  }

  /** The timezone table; any other location has no entry. */
  function TimezoneOf(location: string): (tz: Option<Timezone>)
    ensures tz.Some? <==> location == "Adelaide" || location == "Canada"
    ensures tz.Some? ==> WellFormed(tz.value)
  {
    if location == "Adelaide" then Some(AdelaideHours)
    else if location == "Canada" then Some(CanadaHours)
    else None
  }

  function MinuteOfDay(t: int): (m: int)
    ensures 0 <= m < MinutesPerDay
  {
    t % MinutesPerDay
  }

  /** 0 is Sunday, 6 is Saturday. */
  function DayOfWeek(t: int): (d: int)
    ensures 0 <= d < DaysPerWeek
  {
    (t / MinutesPerDay) % DaysPerWeek
  }

  /** The working-hours test as the source computes it: weekday on the shifted clock,
      then an inclusive comparison after moving a wrapped window's end and
      early-morning hours one day forward.  For a well-formed window it
      means `OpenAt`. */
  function InHours(t: int, tz: Timezone): (r: bool)
    ensures WellFormed(tz) ==> (r <==> OpenAt(tz, t))
  {
    var hourOfDay := MinuteOfDay(t);
    var dayOfWeek := DayOfWeek(t - tz.offsetMinutes);
    if dayOfWeek == Sunday || dayOfWeek == Saturday then false
    else
      var wraps := tz.endMinute <= tz.startMinute;
      var effectiveEnd := if wraps then tz.endMinute + MinutesPerDay else tz.endMinute;
      var effectiveHour := if wraps && hourOfDay < tz.startMinute then hourOfDay + MinutesPerDay else hourOfDay;
      effectiveHour >= tz.startMinute && effectiveHour <= effectiveEnd
  }

  /** What the business-hours rule means: open on weekdays of the
      location's own clock, inside an inclusive window that, when its end
      does not come after its start, runs through midnight. */
  predicate OpenAt(tz: Timezone, t: int) {
    var day := DayOfWeek(t - tz.offsetMinutes);
    var m := MinuteOfDay(t);
    && day != Sunday
    && day != Saturday
    && if tz.startMinute < tz.endMinute then tz.startMinute <= m <= tz.endMinute
       else tz.startMinute <= m || m <= tz.endMinute
  }

  /** The working-hours predicate for a location, undefined (None) for a
      location outside the timezone table. */
  function IsInWorkingHours(t: int, location: string): (r: Option<bool>)
    ensures r.Some? <==> TimezoneOf(location).Some?
    ensures r.Some? ==> (r.value <==> OpenAt(TimezoneOf(location).value, t))
  {
    match TimezoneOf(location)
    case None => None
    case Some(tz) => Some(InHours(t, tz))
  }

  /** Adelaide is open 9:00 to 17:00 inclusive, Monday to Friday. */
  lemma AdelaideSchedule(t: int)
    ensures IsInWorkingHours(t, "Adelaide") == Some(
      DayOfWeek(t) != Sunday && DayOfWeek(t) != Saturday && 540 <= MinuteOfDay(t) <= 1020)
  {
  }

  /** Canada's wrapped window on the reference clock is the same 9:00 to
      17:00, Monday to Friday, schedule kept on a clock 13.5 hours behind. */
  lemma {:induction false} CanadaKeepsAdelaideScheduleLocally(t: int)
    ensures InHours(t, CanadaHours) == InHours(t - CanadaHours.offsetMinutes, AdelaideHours)
  {
    var local := t - 810;
    var q := t / MinutesPerDay;
    var m := t % MinutesPerDay;
    assert t == q * MinutesPerDay + m;
    if m >= 810 {
      assert local == q * MinutesPerDay + (m - 810);
      assert MinuteOfDay(local) == m - 810;
    } else {
      assert local == (q - 1) * MinutesPerDay + (m + 630);
      assert MinuteOfDay(local) == m + 630;
    }
  }
}

=== FILE: cursor_sort.dfy ===
/** A stable sort of advisor indices by an integer key per advisor (the
    round-robin cursor).  A stable sort is determined by two facts: its
    output is ordered by key, and for every key value the advisors holding
    that key keep their relative order.  Both are proved here, with the
    permutation fact. */
module CursorSort {

  /** Every element indexes `keys`. */
  predicate ValidOrder(s: seq<nat>, keys: seq<int>) {
    forall i :: 0 <= i < |s| ==> s[i] < |keys|
  }

  predicate SortedByKey(s: seq<nat>, keys: seq<int>) {
    ValidOrder(s, keys) && forall i, j :: 0 <= i < j < |s| ==> keys[s[i]] <= keys[s[j]]
  }

  /** The elements of `s` whose key is `k`, in their order in `s`. */
  function WithKey(s: seq<nat>, keys: seq<int>, k: int): seq<nat>
    requires ValidOrder(s, keys)
  {
    if |s| == 0 then []
    else (if keys[s[0]] == k then [s[0]] else []) + WithKey(s[1..], keys, k)
  }

  /** Puts `x` in front of the first element whose key is not below its own. */
  function Insert(x: nat, t: seq<nat>, keys: seq<int>): (r: seq<nat>)
    requires x < |keys| && ValidOrder(t, keys)
    ensures ValidOrder(r, keys)
    ensures multiset(r) == multiset(t) + multiset{x}
    ensures |r| == |t| + 1
  {
    if |t| == 0 || keys[x] <= keys[t[0]] then [x] + t
    else
      assert t == [t[0]] + t[1..];
      [t[0]] + Insert(x, t[1..], keys)
  }

  /** A lower bound on the keys of `x` and of `t` bounds the result. */
  lemma {:induction false} InsertBound(x: nat, t: seq<nat>, keys: seq<int>, b: int)
    requires x < |keys| && ValidOrder(t, keys)
    requires b <= keys[x] && forall i :: 0 <= i < |t| ==> b <= keys[t[i]]
    ensures forall i :: 0 <= i < |t| + 1 ==> b <= keys[Insert(x, t, keys)[i]]
  {
    if |t| == 0 || keys[x] <= keys[t[0]] {
    } else {
      InsertBound(x, t[1..], keys, b);
      var r := Insert(x, t, keys);
      forall i | 0 <= i < |t| + 1 ensures b <= keys[r[i]] {
        if i > 0 {
          assert r[i] == Insert(x, t[1..], keys)[i - 1];
        }
      }
    }
  }

  lemma {:induction false} InsertSorted(x: nat, t: seq<nat>, keys: seq<int>)
    requires x < |keys| && SortedByKey(t, keys)
    ensures SortedByKey(Insert(x, t, keys), keys)
  {
    if |t| == 0 || keys[x] <= keys[t[0]] {
      var r := [x] + t;
      forall i, j | 0 <= i < j < |r| ensures keys[r[i]] <= keys[r[j]] {
        if i == 0 {
          assert r[j] == t[j - 1];
          assert keys[t[0]] <= keys[t[j - 1]];
        } else {
          assert r[i] == t[i - 1] && r[j] == t[j - 1];
        }
      }
    } else {
      var tail := t[1..];
      assert SortedByKey(tail, keys) by {
        forall i, j | 0 <= i < j < |tail| ensures keys[tail[i]] <= keys[tail[j]] {
          assert tail[i] == t[i + 1] && tail[j] == t[j + 1];
        }
      }
      var rest := Insert(x, tail, keys);
      InsertSorted(x, tail, keys);
      assert forall i :: 0 <= i < |tail| ==> keys[t[0]] <= keys[tail[i]] by {
        forall i | 0 <= i < |tail| ensures keys[t[0]] <= keys[tail[i]] {
          assert tail[i] == t[i + 1];
        }
      }
      InsertBound(x, tail, keys, keys[t[0]]);
      var r := [t[0]] + rest;
      forall i, j | 0 <= i < j < |r| ensures keys[r[i]] <= keys[r[j]] {
        if i == 0 {
          assert r[j] == rest[j - 1];
        } else {
          assert r[i] == rest[i - 1] && r[j] == rest[j - 1];
        }
      }
    }
  }

  lemma {:induction false} InsertWithKey(x: nat, t: seq<nat>, keys: seq<int>, k: int)
    requires x < |keys| && SortedByKey(t, keys)
    ensures WithKey(Insert(x, t, keys), keys, k) == (if keys[x] == k then [x] else []) + WithKey(t, keys, k)
  {
    if |t| == 0 || keys[x] <= keys[t[0]] {
      assert ([x] + t)[1..] == t;
    } else {
      var rest := Insert(x, t[1..], keys);
      assert SortedByKey(t[1..], keys) by {
        forall i, j | 0 <= i < j < |t[1..]| ensures keys[t[1..][i]] <= keys[t[1..][j]] {
          assert t[1..][i] == t[i + 1] && t[1..][j] == t[j + 1];
        }
      }
      InsertWithKey(x, t[1..], keys, k);
      assert ([t[0]] + rest)[1..] == rest;
      assert WithKey(t, keys, k) == (if keys[t[0]] == k then [t[0]] else []) + WithKey(t[1..], keys, k);
    }
  }

  function Sort(s: seq<nat>, keys: seq<int>): (r: seq<nat>)
    requires ValidOrder(s, keys)
    ensures multiset(r) == multiset(s)
    ensures SortedByKey(r, keys)
    ensures forall k :: WithKey(r, keys, k) == WithKey(s, keys, k)
  {
    if |s| == 0 then []
    else
      var rest := Sort(s[1..], keys);
      assert s == [s[0]] + s[1..];
      InsertSorted(s[0], rest, keys);
      assert forall k :: WithKey(Insert(s[0], rest, keys), keys, k) == WithKey(s, keys, k) by {
        forall k ensures WithKey(Insert(s[0], rest, keys), keys, k) == WithKey(s, keys, k) {
          InsertWithKey(s[0], rest, keys, k);
        }
      }
      Insert(s[0], rest, keys)
  }
}

=== FILE: decay.dfy ===
/** Time decay of the live allotment in the two tolerance modes.  Decay is
    not stored: for every lead it is recomputed from the advisor's live
    allotment and the whole days elapsed since the first lead's day. */
module Decay {
  import Calendar

  /** The calendar day a timestamp falls on (start of that day). */
  function DayNumber(t: int): int {
    t / Calendar.MinutesPerDay
  }

  /** Whole days between the start of `start`'s day and the start of `t`'s
      day: `t` falls on the `d`-th day after `start`'s.  Never negative for
      a lead no earlier than the first. */
  function DaysFromStart(start: int, t: int): (d: int)
    ensures (DayNumber(start) + d) * Calendar.MinutesPerDay <= t < (DayNumber(start) + d + 1) * Calendar.MinutesPerDay
    ensures start <= t ==> d >= 0
  {
    DayNumber(t) - DayNumber(start)
  }

  /** A lead `k` days later is `k` more days from the start; a lead on the
      same day as the start is zero days from it. */
  lemma DaysFromStartShift(start: int, t: int, k: int)
    ensures DaysFromStart(start, t + k * Calendar.MinutesPerDay) == DaysFromStart(start, t) + k
    ensures DayNumber(t) == DayNumber(start) ==> DaysFromStart(start, t) == 0
  {
  }

  /** The live allotment reduced by `days * decayPerDay`, floored at zero. */
  function Decayed(current: real, days: int, decayPerDay: real): (r: real)
    ensures r >= 0.0
    ensures r >= current - days as real * decayPerDay
    ensures r == 0.0 || r == current - days as real * decayPerDay
  {
    var reduced := current - days as real * decayPerDay;
    if reduced > 0.0 then reduced else 0.0
  }

  /** Recomputing from the start agrees with decaying step by step, as
      long as no lead is committed in between: decaying `d1` days and then
      `d2` more is decaying `d1 + d2` days. */
  lemma DecayComposes(current: real, d1: nat, d2: nat, decayPerDay: real)
    requires decayPerDay >= 0.0
    ensures Decayed(Decayed(current, d1, decayPerDay), d2, decayPerDay)
         == Decayed(current, d1 + d2, decayPerDay)
  {
    assert (d1 + d2) as real * decayPerDay == d1 as real * decayPerDay + d2 as real * decayPerDay;
  }

  /** With a non-negative rate, more elapsed days never raise the decayed
      allotment, and an extra committed lead raises it by at most one. */
  lemma DecayMonotone(current: real, d1: int, d2: int, decayPerDay: real)
    requires decayPerDay >= 0.0 && d1 <= d2
    ensures Decayed(current, d2, decayPerDay) <= Decayed(current, d1, decayPerDay)
    ensures Decayed(current, d1, decayPerDay) <= Decayed(current + 1.0, d1, decayPerDay)
                                              <= Decayed(current, d1, decayPerDay) + 1.0
  {
    var gap := (d2 - d1) as real;
    assert gap * decayPerDay >= 0.0;
    assert d2 as real * decayPerDay == d1 as real * decayPerDay + gap * decayPerDay;
  }
}

=== FILE: most_suitable.dfy ===
/** The three "most suitable" passes: aggressive, fixed allotment
    tolerance and proportional allotment tolerance.  Each is one fold over
    the leads in order: narrow the advisors to the lead's portfolio, read
    each one's working-hours flag and propensity, rank, commit the head. */
module MostSuitable {
  import opened Outcomes
  import opened Records
  import opened Ranking
  import Calendar
  import Decay

  /** The seed of the running minimum (JavaScript's largest safe integer). */
  const MaxSafeInteger: real := 9007199254740991.0

  datatype Policy =
    | Aggressive
    | FixedTolerance(tolerance: real, decayPerDay: real)
    | ProportionalTolerance(tolerancePercent: real, decayPerDay: real)

  /** `c` is advisor `c.advisor` of the table as seen for `lead`. */
  predicate Describes(lead: Lead, advisors: seq<Advisor>, c: Candidate) {
    && c.advisor < |advisors|
    && IsMatchingPortfolio(advisors[c.advisor], lead)
    && Calendar.IsInWorkingHours(lead.created, advisors[c.advisor].location) == Some(c.inHours)
    && c.advisor in lead.propensity
    && lead.propensity[c.advisor] == c.propensity
    && c.load == advisors[c.advisor].currentAllotment
  }

  /** The location of `a` is in the timezone table and the lead has a
      propensity for it. */
  predicate Readable(lead: Lead, a: Advisor, i: nat) {
    Calendar.TimezoneOf(a.location).Some? && i in lead.propensity
  }

  /** Appending advisor `n - 1` to candidates that cover the eligible
      advisors below `n - 1` covers those below `n`. */
  lemma AppendCovers(lead: Lead, advisors: seq<Advisor>, n: nat, cs: seq<Candidate>, c: Candidate)
    requires 0 < n <= |advisors| && c.advisor == n - 1
    requires forall i :: 0 <= i < n - 1 && IsMatchingPortfolio(advisors[i], lead) ==>
               exists k :: 0 <= k < |cs| && cs[k].advisor == i
    ensures forall i :: 0 <= i < n && IsMatchingPortfolio(advisors[i], lead) ==>
              exists k :: 0 <= k < |cs + [c]| && (cs + [c])[k].advisor == i
  {
    var r := cs + [c];
    forall i | 0 <= i < n && IsMatchingPortfolio(advisors[i], lead)
      ensures exists k :: 0 <= k < |r| && r[k].advisor == i
    {
      if i < n - 1 {
        var k :| 0 <= k < |cs| && cs[k].advisor == i;
        assert r[k] == cs[k];
      } else {
        assert r[|cs|].advisor == i;
      }
    }
  }

  /** Appending a description of advisor `n - 1` to increasing
      descriptions of advisors below `n - 1` keeps them increasing. */
  lemma AppendInOrder(lead: Lead, advisors: seq<Advisor>, n: nat, cs: seq<Candidate>, c: Candidate)
    requires 0 < n <= |advisors| && c.advisor == n - 1 && Describes(lead, advisors, c)
    requires forall k :: 0 <= k < |cs| ==> cs[k].advisor < n - 1 && Describes(lead, advisors, cs[k])
    requires forall k, l :: 0 <= k < l < |cs| ==> cs[k].advisor < cs[l].advisor
    ensures forall k :: 0 <= k < |cs + [c]| ==> (cs + [c])[k].advisor < n && Describes(lead, advisors, (cs + [c])[k])
    ensures forall k, l :: 0 <= k < l < |cs + [c]| ==> (cs + [c])[k].advisor < (cs + [c])[l].advisor
  {
  }

  /** Advisor `i` as the comparators see it for `lead`: an unknown location
      or a missing propensity entry is an error. */
  function Describe(lead: Lead, advisors: seq<Advisor>, i: nat): (r: Result<Candidate>)
    requires i < |advisors| && IsMatchingPortfolio(advisors[i], lead)
    ensures r.Ok? <==> Readable(lead, advisors[i], i)
    ensures r.Ok? ==> r.value.advisor == i && Describes(lead, advisors, r.value)
  {
    var a := advisors[i];
    match Calendar.IsInWorkingHours(lead.created, a.location)
    case None => Err(UnknownLocation(a.location))
    case Some(inHours) =>
      if i !in lead.propensity then Err(MissingPropensity(lead.leadId, i))
      else Ok(Candidate(i, inHours, lead.propensity[i], a.currentAllotment))
  }

  /** Readability of the first `n` eligible advisors, one advisor at a time. */
  lemma ReadableStep(lead: Lead, advisors: seq<Advisor>, n: nat)
    requires 0 < n <= |advisors|
    ensures (forall i :: 0 <= i < n && IsMatchingPortfolio(advisors[i], lead) ==> Readable(lead, advisors[i], i))
        <==> (forall i :: 0 <= i < n - 1 && IsMatchingPortfolio(advisors[i], lead) ==> Readable(lead, advisors[i], i))
             && (IsMatchingPortfolio(advisors[n - 1], lead) ==> Readable(lead, advisors[n - 1], n - 1))
  {
  }

  /** The eligible advisors among the first `n`, in table order. */
  function CandidatesUpTo(lead: Lead, advisors: seq<Advisor>, n: nat): (r: Result<seq<Candidate>>)
    requires n <= |advisors|
    ensures r.Ok? <==> forall i :: 0 <= i < n && IsMatchingPortfolio(advisors[i], lead) ==> Readable(lead, advisors[i], i)
    ensures r.Ok? ==> forall k :: 0 <= k < |r.value| ==> r.value[k].advisor < n && Describes(lead, advisors, r.value[k])
    ensures r.Ok? ==> forall k, l :: 0 <= k < l < |r.value| ==> r.value[k].advisor < r.value[l].advisor
    ensures r.Ok? ==> forall i :: 0 <= i < n && IsMatchingPortfolio(advisors[i], lead) ==>
                        exists k :: 0 <= k < |r.value| && r.value[k].advisor == i
  {
    if n == 0 then Ok([])
    else
      ReadableStep(lead, advisors, n);
      var cs :- CandidatesUpTo(lead, advisors, n - 1);
      var a := advisors[n - 1];
      if !IsMatchingPortfolio(a, lead) then Ok(cs)
      else
        var c :- Describe(lead, advisors, n - 1);
        AppendCovers(lead, advisors, n, cs, c);
        AppendInOrder(lead, advisors, n, cs, c);
        Ok(cs + [c])
  }

  /** The eligible advisors of the whole table, in table order. */
  function Candidates(lead: Lead, advisors: seq<Advisor>): (r: Result<seq<Candidate>>)
    ensures r.Ok? <==> forall i :: 0 <= i < |advisors| && IsMatchingPortfolio(advisors[i], lead) ==> Readable(lead, advisors[i], i)
    ensures r.Ok? ==> forall k :: 0 <= k < |r.value| ==> Describes(lead, advisors, r.value[k])
    ensures r.Ok? ==> forall k, l :: 0 <= k < l < |r.value| ==> r.value[k].advisor < r.value[l].advisor
    ensures r.Ok? ==> forall i :: 0 <= i < |advisors| && IsMatchingPortfolio(advisors[i], lead) ==>
                        exists k :: 0 <= k < |r.value| && r.value[k].advisor == i
  {
    CandidatesUpTo(lead, advisors, |advisors|)
  }

  /** Loads replaced by their decayed value. */
  function WithDecay(cs: seq<Candidate>, days: int, decayPerDay: real): (ds: seq<Candidate>)
    ensures |ds| == |cs|
    ensures forall k :: 0 <= k < |cs| ==> ds[k] == cs[k].(load := Decay.Decayed(cs[k].load, days, decayPerDay))
  {
    seq(|cs|, k requires 0 <= k < |cs| => cs[k].(load := Decay.Decayed(cs[k].load, days, decayPerDay)))
  }

  /** The running minimum of the loads, seeded with `MaxSafeInteger`: the
      least load whenever some load does not exceed the seed. */
  function LowestAllotment(cs: seq<Candidate>): (lowest: real)
    ensures lowest <= MaxSafeInteger
    ensures forall k :: 0 <= k < |cs| ==> lowest <= cs[k].load
    ensures lowest == MaxSafeInteger || exists k :: 0 <= k < |cs| && cs[k].load == lowest
  {
    if |cs| == 0 then MaxSafeInteger
    else
      var prev := LowestAllotment(cs[..|cs| - 1]);
      var last := cs[|cs| - 1].load;
      assert forall k :: 0 <= k < |cs| - 1 ==> cs[..|cs| - 1][k] == cs[k];
      if last < prev then last else prev
  }

  /** The proportional cap: the lowest allotment raised by the given
      percentage.  A positive floor with a positive tolerance leaves the
      least loaded advisor strictly below the cap; a zero floor gives a
      zero cap. */
  function ProportionalCap(lowest: real, tolerancePercent: real): (cap: real)
    ensures lowest >= 0.0 && tolerancePercent >= 0.0 ==> lowest <= cap
    ensures lowest > 0.0 && tolerancePercent > 0.0 ==> lowest < cap
    ensures lowest == 0.0 ==> cap == 0.0
    ensures tolerancePercent == 100.0 ==> cap == 2.0 * lowest
  {
    lowest + lowest * (tolerancePercent / 100.0)
  }

  /** The cap a tolerance policy applies to the decayed candidates `ds`. */
  function CapRuleOf(policy: Policy, ds: seq<Candidate>): CapRule
    requires !policy.Aggressive?
  {
    match policy
    case FixedTolerance(tolerance, _) => FixedGap(LowestAllotment(ds), tolerance)
    case ProportionalTolerance(tolerancePercent, _) => Ceiling(ProportionalCap(LowestAllotment(ds), tolerancePercent))
  }

  /** With a fixed tolerance above zero and every candidate in the same
      hours class, the winner's decayed allotment is within the tolerance
      of the lowest one. */
  lemma FixedToleranceBound(ds: seq<Candidate>, tolerance: real, w: nat)
    requires tolerance > 0.0
    requires forall k :: 0 <= k < |ds| ==> ds[k].load <= MaxSafeInteger
    requires IsCappedChoice(ds, FixedGap(LowestAllotment(ds), tolerance), w)
    requires forall k :: 0 <= k < |ds| ==> ds[k].inHours == ds[w].inHours
    ensures ds[w].load - LowestAllotment(ds) < tolerance
  {
    var lowest := LowestAllotment(ds);
    var j :| 0 <= j < |ds| && ds[j].load == lowest by {
      if lowest == MaxSafeInteger {
        assert ds[w].load == lowest;
      }
    }
    assert WithinCap(ds[j], FixedGap(lowest, tolerance));
  }

  /** The proportional cap of a zero floor is zero, so with decayed
      allotments never below zero no advisor is within it: the winner is
      the least loaded of its hours class, and propensity only breaks ties
      between equal allotments. */
  lemma ProportionalZeroFloor(ds: seq<Candidate>, tolerancePercent: real, decayPerDay: real, w: nat)
    requires forall k :: 0 <= k < |ds| ==> ds[k].load >= 0.0
    requires LowestAllotment(ds) == 0.0
    requires IsCappedChoice(ds, CapRuleOf(ProportionalTolerance(tolerancePercent, decayPerDay), ds), w)
    ensures forall k :: 0 <= k < |ds| ==> !WithinCap(ds[k], CapRuleOf(ProportionalTolerance(tolerancePercent, decayPerDay), ds))
    ensures forall k :: 0 <= k < |ds| && ds[k].inHours == ds[w].inHours ==>
              && ds[w].load <= ds[k].load
              && (ds[k].load == ds[w].load ==> ds[k].propensity <= ds[w].propensity)
  {
  }

  /** The advisor `a` is the head of the aggressive order of `cs`. */
  predicate AggressiveWinner(cs: seq<Candidate>, a: nat) {
    exists k :: 0 <= k < |cs| && cs[k].advisor == a && IsAggressiveChoice(cs, k)
  }

  /** The advisor `a` is the head of the tolerance order of `ds` under `rule`. */
  predicate CappedWinner(ds: seq<Candidate>, rule: CapRule, a: nat) {
    exists k :: 0 <= k < |ds| && ds[k].advisor == a && IsCappedChoice(ds, rule, k)
  }

  /** The selection for one lead, `days` after the first lead's day. */
  function Choose(policy: Policy, lead: Lead, advisors: seq<Advisor>, days: int): (r: Result<nat>)
    ensures r.Ok? <==> Candidates(lead, advisors).Ok? && |Candidates(lead, advisors).value| > 0
    ensures Candidates(lead, advisors).Ok? && |Candidates(lead, advisors).value| == 0
            ==> r == Err(NoEligibleAdvisor(lead.leadId))
    ensures r.Ok? ==> r.value < |advisors| && IsMatchingPortfolio(advisors[r.value], lead)
  {
    var cs :- Candidates(lead, advisors);
    if |cs| == 0 then Err(NoEligibleAdvisor(lead.leadId))
    else if policy.Aggressive? then
      var k := SelectAggressive(cs);
      assert Describes(lead, advisors, cs[k]);
      Ok(cs[k].advisor)
    else
      var ds := WithDecay(cs, days, policy.decayPerDay);
      var k := SelectCapped(ds, CapRuleOf(policy, ds));
      assert Describes(lead, advisors, cs[k]);
      Ok(ds[k].advisor)
  }

  /** The selected advisor heads the policy's order of the eligible
      advisors. */
  lemma ChooseIsPolicyWinner(policy: Policy, lead: Lead, advisors: seq<Advisor>, days: int)
    requires Choose(policy, lead, advisors, days).Ok?
    ensures var a := Choose(policy, lead, advisors, days).value;
            && (policy.Aggressive? ==> AggressiveWinner(Candidates(lead, advisors).value, a))
            && (!policy.Aggressive? ==>
                  var ds := WithDecay(Candidates(lead, advisors).value, days, policy.decayPerDay);
                  CappedWinner(ds, CapRuleOf(policy, ds), a))
  {
    var cs := Candidates(lead, advisors).value;
    if policy.Aggressive? {
      var k := SelectAggressive(cs);
      assert cs[k].advisor == Choose(policy, lead, advisors, days).value;
    } else {
      var ds := WithDecay(cs, days, policy.decayPerDay);
      var k := SelectCapped(ds, CapRuleOf(policy, ds));
      assert ds[k].advisor == Choose(policy, lead, advisors, days).value;
    }
  }

  /** The selection a pass applies to each lead, given the table as the
      earlier leads left it. */
  type Selector = (Lead, seq<Advisor>) -> Result<nat>

  /** A selection only ever picks an advisor of the lead's portfolio. */
  ghost predicate PicksInPortfolio(select: Selector) {
    forall lead, advisors :: select(lead, advisors).Ok? ==>
      select(lead, advisors).value < |advisors| && IsMatchingPortfolio(advisors[select(lead, advisors).value], lead)
  }

  /** The selection of a policy whose first lead arrived at `start`. */
  function PolicySelector(policy: Policy, start: int): (select: Selector)
    ensures PicksInPortfolio(select)
  {
    (lead: Lead, advisors: seq<Advisor>) => Choose(policy, lead, advisors, Decay.DaysFromStart(start, lead.created))
  }

  /** The fold over the first `n` leads. */
  function RunUpTo(select: Selector, leads: seq<Lead>, advisors: seq<Advisor>, n: nat): (r: Result<Allocation>)
    requires PicksInPortfolio(select) && n <= |leads|
    ensures r.Ok? ==> |r.value.leads| == n && |r.value.advisors| == |advisors|
    ensures r.Ok? ==> forall i :: 0 <= i < n ==>
              r.value.leads[i].allocatedCa.Some? && r.value.leads[i] == Assign(leads[i], r.value.leads[i].allocatedCa.value)
  {
    if n == 0 then Ok(Allocation([], advisors))
    else
      var prev :- RunUpTo(select, leads, advisors, n - 1);
      var w :- select(leads[n - 1], prev.advisors);
      Ok(Allocation(prev.leads + [Assign(leads[n - 1], w)], Commit(prev.advisors, w)))
  }

  /** One step of `RunUpTo`: lead `n - 1` goes to the selection on the
      table the earlier leads left, appended after them. */
  lemma RunStep(select: Selector, leads: seq<Lead>, advisors: seq<Advisor>, n: nat)
    requires PicksInPortfolio(select) && 0 < n <= |leads| && RunUpTo(select, leads, advisors, n).Ok?
    ensures RunUpTo(select, leads, advisors, n - 1).Ok?
    ensures var prev := RunUpTo(select, leads, advisors, n - 1).value;
            var c := select(leads[n - 1], prev.advisors);
            && c.Ok?
            && RunUpTo(select, leads, advisors, n).value
               == Allocation(prev.leads + [Assign(leads[n - 1], c.value)], Commit(prev.advisors, c.value))
  {
  }

  /** Every pass allocates each lead once, to an advisor of its portfolio,
      and raises exactly that advisor's allotment by one. */
  lemma {:induction false} RunConserves(select: Selector, leads: seq<Lead>, advisors: seq<Advisor>, n: nat)
    requires PicksInPortfolio(select) && n <= |leads|
    ensures var r := RunUpTo(select, leads, advisors, n);
            r.Ok? ==> Conserves(advisors, leads[..n], r.value.leads, r.value.advisors) && RespectsPortfolio(r.value.leads, advisors)
    decreases n
  {
    if n == 0 {
      ConservesAtStart(advisors);
    } else if RunUpTo(select, leads, advisors, n).Ok? {
      RunConserves(select, leads, advisors, n - 1);
      RunStep(select, leads, advisors, n);
      var prev := RunUpTo(select, leads, advisors, n - 1).value;
      var w := select(leads[n - 1], prev.advisors).value;
      assert leads[..n][..n - 1] == leads[..n - 1];
      ConservesStep(advisors, leads[..n], prev.leads, prev.advisors, w);
    }
  }

  /** The pass over the first `m` leads is the prefix of the pass over the
      first `n`: a later lead never changes how an earlier one was
      allocated. */
  lemma {:induction false} RunPrefix(select: Selector, leads: seq<Lead>, advisors: seq<Advisor>, m: nat, n: nat)
    requires PicksInPortfolio(select) && m <= n <= |leads|
    requires RunUpTo(select, leads, advisors, n).Ok?
    ensures RunUpTo(select, leads, advisors, m).Ok?
    ensures RunUpTo(select, leads, advisors, n).value.leads[..m] == RunUpTo(select, leads, advisors, m).value.leads
    decreases n
  {
    var out := RunUpTo(select, leads, advisors, n).value.leads;
    if m == n {
      TakeAll(out);
    } else {
      RunStep(select, leads, advisors, n);
      RunPrefix(select, leads, advisors, m, n - 1);
      TakeTake(out, n - 1, m);
    }
  }

  /** The pass of a policy over all the leads, the first arriving at `start`. */
  function Pass(policy: Policy, leads: seq<Lead>, advisors: seq<Advisor>, start: int): (r: Result<Allocation>)
    ensures r.Ok? ==> Conserves(advisors, leads, r.value.leads, r.value.advisors)
    ensures r.Ok? ==> RespectsPortfolio(r.value.leads, advisors)
    ensures r.Ok? <==> forall i :: 0 <= i < |leads| ==> Servable(leads[i], advisors)
    ensures r.Ok? ==> r.value.advisors == TableAfter(advisors, r.value.leads)
  {
    var select := PolicySelector(policy, start);
    RunConserves(select, leads, advisors, |leads|);
    PolicySelectorFailsOnlyUnservable(policy, start);
    RunOk(select, leads, advisors, |leads|);
    assert leads[..|leads|] == leads;
    var r := RunUpTo(select, leads, advisors, |leads|);
    if r.Ok? then RunTable(select, leads, advisors, |leads|); r else r
  }

  /** The i-th lead goes to the selection on the table left by the leads
      before it. */
  lemma EachLeadIsSelected(select: Selector, leads: seq<Lead>, advisors: seq<Advisor>, i: nat)
    requires PicksInPortfolio(select) && i < |leads| && RunUpTo(select, leads, advisors, |leads|).Ok?
    ensures RunUpTo(select, leads, advisors, i).Ok?
    ensures RunUpTo(select, leads, advisors, |leads|).value.leads[i].allocatedCa.Some?
    ensures select(leads[i], RunUpTo(select, leads, advisors, i).value.advisors)
         == Ok(RunUpTo(select, leads, advisors, |leads|).value.leads[i].allocatedCa.value)
  {
    RunPrefix(select, leads, advisors, i + 1, |leads|);
    RunStep(select, leads, advisors, i + 1);
    var out := RunUpTo(select, leads, advisors, |leads|).value.leads;
    assert out[i] == out[..i + 1][i];
  }

  /** The i-th lead goes to the advisor the policy chooses on the table left
      by the leads before it. */
  lemma EachLeadIsPolicyChoice(policy: Policy, leads: seq<Lead>, advisors: seq<Advisor>, start: int, i: nat)
    requires i < |leads| && Pass(policy, leads, advisors, start).Ok?
    ensures RunUpTo(PolicySelector(policy, start), leads, advisors, i).Ok?
    ensures Pass(policy, leads, advisors, start).value.leads[i].allocatedCa.Some?
    ensures Choose(policy, leads[i], RunUpTo(PolicySelector(policy, start), leads, advisors, i).value.advisors,
                   Decay.DaysFromStart(start, leads[i].created))
         == Ok(Pass(policy, leads, advisors, start).value.leads[i].allocatedCa.value)
  {
    EachLeadIsSelected(PolicySelector(policy, start), leads, advisors, i);
  }

  /** The advisor table as the leads of `prefix` left it: each advisor's
      live allotment raised by the number of those leads it took. */
  function TableAfter(advisors: seq<Advisor>, prefix: seq<Lead>): (r: seq<Advisor>)
    ensures |r| == |advisors|
    ensures forall k :: 0 <= k < |r| ==>
              r[k] == advisors[k].(currentAllotment := advisors[k].currentAllotment + Allotted(prefix, k) as real)
  {
    seq(|advisors|, k requires 0 <= k < |advisors| =>
      advisors[k].(currentAllotment := advisors[k].currentAllotment + Allotted(prefix, k) as real))
  }

  /** The table a pass carries is the starting table with the allotments
      of the leads allocated so far added on, and nothing else changed. */
  lemma {:induction false} RunTable(select: Selector, leads: seq<Lead>, advisors: seq<Advisor>, n: nat)
    requires PicksInPortfolio(select) && n <= |leads| && RunUpTo(select, leads, advisors, n).Ok?
    ensures RunUpTo(select, leads, advisors, n).value.advisors
         == TableAfter(advisors, RunUpTo(select, leads, advisors, n).value.leads)
    decreases n
  {
    if n == 0 {
      assert TableAfter(advisors, []) == advisors;
    } else {
      RunStep(select, leads, advisors, n);
      RunTable(select, leads, advisors, n - 1);
      var prev := RunUpTo(select, leads, advisors, n - 1).value;
      CommitExtendsTable(advisors, prev.leads, leads[n - 1], select(leads[n - 1], prev.advisors).value);
    }
  }

  /** Committing one more lead to `w` moves the table from the leads of
      `prefix` to those of `prefix` and the new lead. */
  lemma CommitExtendsTable(advisors: seq<Advisor>, prefix: seq<Lead>, lead: Lead, w: nat)
    requires w < |advisors|
    ensures Commit(TableAfter(advisors, prefix), w) == TableAfter(advisors, prefix + [Assign(lead, w)])
  {
    var out := prefix + [Assign(lead, w)];
    assert out[..|out| - 1] == prefix;
  }

  /** Some advisor of the table is in the lead's portfolio, and every such
      advisor has a known location and a propensity entry: the leads for
      which a selection throws nothing. */
  predicate Servable(lead: Lead, advisors: seq<Advisor>) {
    && (exists i :: 0 <= i < |advisors| && IsMatchingPortfolio(advisors[i], lead))
    && (forall i :: 0 <= i < |advisors| && IsMatchingPortfolio(advisors[i], lead) ==> Readable(lead, advisors[i], i))
  }

  /** A policy's selection succeeds exactly on a servable lead. */
  lemma ChooseOk(policy: Policy, lead: Lead, advisors: seq<Advisor>, days: int)
    ensures Choose(policy, lead, advisors, days).Ok? <==> Servable(lead, advisors)
  {
    var c := Candidates(lead, advisors);
    if c.Ok? && |c.value| > 0 {
      assert Describes(lead, advisors, c.value[0]);
    }
    if Servable(lead, advisors) {
      var i :| 0 <= i < |advisors| && IsMatchingPortfolio(advisors[i], lead);
      var k :| 0 <= k < |c.value| && c.value[k].advisor == i;
    }
  }

  /** Servability reads only portfolios, locations and propensities, which
      the allotments a pass adds leave alone. */
  lemma ServableKept(lead: Lead, advisors: seq<Advisor>, prefix: seq<Lead>)
    ensures Servable(lead, TableAfter(advisors, prefix)) <==> Servable(lead, advisors)
  {
    var t := TableAfter(advisors, prefix);
    assert forall i :: 0 <= i < |t| ==> t[i].portfolio == advisors[i].portfolio && t[i].location == advisors[i].location;
  }

  /** A selection that fails exactly on the leads that are not servable. */
  ghost predicate FailsOnlyUnservable(select: Selector) {
    forall lead, advisors :: select(lead, advisors).Ok? <==> Servable(lead, advisors)
  }

  lemma PolicySelectorFailsOnlyUnservable(policy: Policy, start: int)
    ensures FailsOnlyUnservable(PolicySelector(policy, start))
  {
    forall lead, advisors
      ensures PolicySelector(policy, start)(lead, advisors).Ok? <==> Servable(lead, advisors)
    {
      ChooseOk(policy, lead, advisors, Decay.DaysFromStart(start, lead.created));
    }
  }

  /** The fold over the first `n` leads succeeds exactly when each of them
      is servable on the starting table. */
  lemma {:induction false} RunOk(select: Selector, leads: seq<Lead>, advisors: seq<Advisor>, n: nat)
    requires PicksInPortfolio(select) && FailsOnlyUnservable(select) && n <= |leads|
    ensures RunUpTo(select, leads, advisors, n).Ok? <==> forall i :: 0 <= i < n ==> Servable(leads[i], advisors)
    decreases n
  {
    if n > 0 {
      RunOk(select, leads, advisors, n - 1);
      if RunUpTo(select, leads, advisors, n - 1).Ok? {
        RunOkStep(select, leads, advisors, n);
      }
    }
  }

  /** Once the leads before it are placed, lead `n - 1` is placed exactly
      when it is servable on the starting table. */
  lemma RunOkStep(select: Selector, leads: seq<Lead>, advisors: seq<Advisor>, n: nat)
    requires PicksInPortfolio(select) && FailsOnlyUnservable(select) && 0 < n <= |leads|
    requires RunUpTo(select, leads, advisors, n - 1).Ok?
    ensures RunUpTo(select, leads, advisors, n).Ok? <==> Servable(leads[n - 1], advisors)
  {
    var prev := RunUpTo(select, leads, advisors, n - 1).value;
    RunNext(select, leads, advisors, n);
    RunTable(select, leads, advisors, n - 1);
    ServableKept(leads[n - 1], advisors, prev.leads);
    assert select(leads[n - 1], prev.advisors).Ok? <==> Servable(leads[n - 1], prev.advisors);
  }

  /** Once the leads before it are placed, lead `n - 1` is placed exactly
      when the selection on the table they left succeeds. */
  lemma RunNext(select: Selector, leads: seq<Lead>, advisors: seq<Advisor>, n: nat)
    requires PicksInPortfolio(select) && 0 < n <= |leads|
    requires RunUpTo(select, leads, advisors, n - 1).Ok?
    ensures RunUpTo(select, leads, advisors, n).Ok?
        <==> select(leads[n - 1], RunUpTo(select, leads, advisors, n - 1).value.advisors).Ok?
  {
  }

  /** `a` heads the policy's order of the advisors eligible for `lead` on
      `table`, `days` after the first lead's day. */
  predicate PolicyWinner(policy: Policy, lead: Lead, table: seq<Advisor>, days: int, a: nat) {
    && Candidates(lead, table).Ok?
    && (policy.Aggressive? ==> AggressiveWinner(Candidates(lead, table).value, a))
    && (!policy.Aggressive? ==>
          var ds := WithDecay(Candidates(lead, table).value, days, policy.decayPerDay);
          CappedWinner(ds, CapRuleOf(policy, ds), a))
  }

  /** Every lead of `out` went to the policy's winner on the table the
      leads before it left, counting days from `start`. */
  predicate ChoosesEachLead(policy: Policy, leads: seq<Lead>, advisors: seq<Advisor>, start: int, out: seq<Lead>) {
    && |out| == |leads|
    && forall i :: 0 <= i < |leads| ==>
         && out[i].allocatedCa.Some?
         && PolicyWinner(policy, leads[i], TableAfter(advisors, out[..i]),
                         Decay.DaysFromStart(start, leads[i].created), out[i].allocatedCa.value)
  }

  /** A successful pass gives every lead to the policy's winner at its turn. */
  lemma PassChoosesEachLead(policy: Policy, leads: seq<Lead>, advisors: seq<Advisor>, start: int)
    requires Pass(policy, leads, advisors, start).Ok?
    ensures ChoosesEachLead(policy, leads, advisors, start, Pass(policy, leads, advisors, start).value.leads)
  {
    var select := PolicySelector(policy, start);
    var out := Pass(policy, leads, advisors, start).value.leads;
    forall i | 0 <= i < |leads|
      ensures out[i].allocatedCa.Some?
      ensures PolicyWinner(policy, leads[i], TableAfter(advisors, out[..i]),
                           Decay.DaysFromStart(start, leads[i].created), out[i].allocatedCa.value)
    {
      EachLeadIsPolicyChoice(policy, leads, advisors, start, i);
      RunPrefix(select, leads, advisors, i, |leads|);
      RunTable(select, leads, advisors, i);
      ChooseIsPolicyWinner(policy, leads[i], TableAfter(advisors, out[..i]), Decay.DaysFromStart(start, leads[i].created));
    }
  }

  function AllocateAggressive(leads: seq<Lead>, advisors: seq<Advisor>): (r: Result<Allocation>)
    requires WellIndexed(advisors)
    ensures |leads| == 0 ==> r == Ok(Allocation([], advisors))
    ensures r.Ok? <==> forall i :: 0 <= i < |leads| ==> Servable(leads[i], advisors)
    ensures r.Ok? ==> Conserves(advisors, leads, r.value.leads, r.value.advisors)
    ensures r.Ok? ==> r.value.advisors == TableAfter(advisors, r.value.leads)
    ensures r.Ok? ==> RespectsPortfolio(r.value.leads, advisors)
    ensures r.Ok? ==> ChoosesEachLead(Aggressive, leads, advisors, 0, r.value.leads)
  {
    var r := Pass(Aggressive, leads, advisors, 0);
    if r.Ok? then PassChoosesEachLead(Aggressive, leads, advisors, 0); r else r
  }

  function AllocateFixedTolerance(leads: seq<Lead>, advisors: seq<Advisor>, tolerance: real, decayPerDay: real)
    : (r: Result<Allocation>)
    requires WellIndexed(advisors)
    ensures |leads| == 0 ==> r == Err(NoLeads)
    ensures |leads| > 0 ==> (r.Ok? <==> forall i :: 0 <= i < |leads| ==> Servable(leads[i], advisors))
    ensures r.Ok? ==> Conserves(advisors, leads, r.value.leads, r.value.advisors)
    ensures r.Ok? ==> r.value.advisors == TableAfter(advisors, r.value.leads)
    ensures r.Ok? ==> RespectsPortfolio(r.value.leads, advisors)
    ensures r.Ok? ==> ChoosesEachLead(FixedTolerance(tolerance, decayPerDay), leads, advisors, leads[0].created, r.value.leads)
  {
    if |leads| == 0 then Err(NoLeads)
    else
      var r := Pass(FixedTolerance(tolerance, decayPerDay), leads, advisors, leads[0].created);
      if r.Ok? then PassChoosesEachLead(FixedTolerance(tolerance, decayPerDay), leads, advisors, leads[0].created); r
      else r
  }

  /** `tolerancePercent` is the tolerance parameter as entered, a percentage. */
  function AllocateProportionalTolerance(leads: seq<Lead>, advisors: seq<Advisor>, tolerancePercent: real,
                                         decayPerDay: real): (r: Result<Allocation>)
    requires WellIndexed(advisors)
    ensures |leads| == 0 ==> r == Err(NoLeads)
    ensures |leads| > 0 ==> (r.Ok? <==> forall i :: 0 <= i < |leads| ==> Servable(leads[i], advisors))
    ensures r.Ok? ==> Conserves(advisors, leads, r.value.leads, r.value.advisors)
    ensures r.Ok? ==> r.value.advisors == TableAfter(advisors, r.value.leads)
    ensures r.Ok? ==> RespectsPortfolio(r.value.leads, advisors)
    ensures r.Ok? ==> ChoosesEachLead(ProportionalTolerance(tolerancePercent, decayPerDay), leads, advisors,
                                      leads[0].created, r.value.leads)
  {
    if |leads| == 0 then Err(NoLeads)
    else
      var policy := ProportionalTolerance(tolerancePercent, decayPerDay);
      var r := Pass(policy, leads, advisors, leads[0].created);
      if r.Ok? then PassChoosesEachLead(policy, leads, advisors, leads[0].created); r
      else r
  }
}

=== FILE: outcomes.dfy ===
/** Failure-compatible results for the allocation passes.  Every `Failure`
    case is a point where the JavaScript engine would stop the pass with a
    TypeError (an `undefined` value is dereferenced). */
module Outcomes {

  datatype Option<+T> = None | Some(value: T)

  datatype Failure =
    /** `leads[0].created` read on an empty lead table (tolerance modes). */
    | NoLeads
    /** Round robin only knows the Domestic and Canada queues. */
    | UnknownPortfolio(leadId: int)
    /** The portfolio filter left no advisor to pick. */
    | NoEligibleAdvisor(leadId: int)
    /** The location is not a key of the timezone table. */
    | UnknownLocation(location: string)
    /** The lead carries no propensity entry for this advisor. */
    | MissingPropensity(leadId: int, advisor: nat)

  datatype Result<+T> = Ok(value: T) | Err(error: Failure) {
    predicate IsFailure() {
      Err?
    }

    function PropagateFailure<U>(): Result<U>
      requires Err?
    {
      Err(error)
    }

    function Extract(): T
      requires Ok?
    {
      value
    }
  }
}

=== FILE: ranking.dfy ===
/** Ranking of the eligible advisors for one lead.  Each comparator chain of
    the source is a lexicographic key on (in hours, within the cap, a major
    and a minor number); the comparators are total preorders and the sort is
    stable, so the advisor at the head of the sorted list is the FIRST, in
    table order, of those whose key is least. */
module Ranking {

  /** One eligible advisor as the comparators see it for one lead: its
      index, whether it is in working hours, its propensity for the lead
      and its load (live allotment, or the decayed one). */
  datatype Candidate = Candidate(advisor: nat, inHours: bool, propensity: real, load: real)

  /** A lexicographic key; false sorts before true, smaller numbers first. */
  datatype Rank = Rank(offHours: bool, overCap: bool, major: real, minor: real)

  predicate Less(a: Rank, b: Rank) {
    if a.offHours != b.offHours then !a.offHours
    else if a.overCap != b.overCap then !a.overCap
    else if a.major != b.major then a.major < b.major
    else a.minor < b.minor
  }

  lemma LessIsStrictTotalOrder(a: Rank, b: Rank, c: Rank)
    ensures !Less(a, a)
    ensures Less(a, b) && Less(b, c) ==> Less(a, c)
    ensures a != b ==> Less(a, b) || Less(b, a)
  {
  }

  /** The index of the first least key. */
  function FirstLeast(ks: seq<Rank>): (r: nat)
    requires |ks| > 0
    ensures r < |ks|
    ensures forall j :: 0 <= j < |ks| ==> !Less(ks[j], ks[r])
    ensures forall j :: 0 <= j < r ==> Less(ks[r], ks[j])
  {
    if |ks| == 1 then 0
    else
      var b := FirstLeast(ks[..|ks| - 1]);
      if Less(ks[|ks| - 1], ks[b]) then |ks| - 1 else b
  }

  // ---------------------------------------------------------------- aggressive

  /** In hours first, then highest propensity, then lowest load. */
  function AggressiveRank(c: Candidate): Rank {
    Rank(!c.inHours, false, -c.propensity, c.load)
  }

  /** The aggressive comparator as written: negative when `a` goes first.
      Its sign is the order of the aggressive keys, so it is a total preorder. */
  function AggressiveCompare(a: Candidate, b: Candidate): (r: real)
    ensures r < 0.0 <==> Less(AggressiveRank(a), AggressiveRank(b))
    ensures r > 0.0 <==> Less(AggressiveRank(b), AggressiveRank(a))
  {
    if b.inHours && !a.inHours then 1.0
    else if a.inHours && !b.inHours then -1.0
    else if b.propensity != a.propensity then b.propensity - a.propensity
    else a.load - b.load
  }

  /** Whether `cs[w]` is the advisor the aggressive sort puts first: in hours
      if anyone is; of highest propensity within its hours class; of lowest
      load among those; and no earlier candidate ties it on all three. */
  predicate IsAggressiveChoice(cs: seq<Candidate>, w: nat) {
    && w < |cs|
    && (forall j :: 0 <= j < |cs| && cs[j].inHours ==> cs[w].inHours)
    && (forall j :: 0 <= j < |cs| && cs[j].inHours == cs[w].inHours ==> cs[j].propensity <= cs[w].propensity)
    && (forall j :: 0 <= j < |cs| && cs[j].inHours == cs[w].inHours && cs[j].propensity == cs[w].propensity
          ==> cs[w].load <= cs[j].load)
    && (forall j :: 0 <= j < w ==>
          !(cs[j].inHours == cs[w].inHours && cs[j].propensity == cs[w].propensity && cs[j].load == cs[w].load))
  }

  function AggressiveRanks(cs: seq<Candidate>): (ks: seq<Rank>)
    ensures |ks| == |cs| && forall i :: 0 <= i < |cs| ==> ks[i] == AggressiveRank(cs[i])
  {
    seq(|cs|, i requires 0 <= i < |cs| => AggressiveRank(cs[i]))
  }

  /** The head of the aggressive sort: the one candidate that meets the
      characterization. */
  function SelectAggressive(cs: seq<Candidate>): (w: nat)
    requires |cs| > 0
    ensures IsAggressiveChoice(cs, w)
    ensures forall v :: IsAggressiveChoice(cs, v) ==> v == w
  {
    var ks := AggressiveRanks(cs);
    var w := FirstLeast(ks);
    assert forall j :: 0 <= j < |cs| ==> !Less(AggressiveRank(cs[j]), AggressiveRank(cs[w])) by {
      forall j | 0 <= j < |cs| ensures !Less(AggressiveRank(cs[j]), AggressiveRank(cs[w])) {
        assert ks[j] == AggressiveRank(cs[j]);
      }
    }
    assert forall j :: 0 <= j < w ==> Less(AggressiveRank(cs[w]), AggressiveRank(cs[j])) by {
      forall j | 0 <= j < w ensures Less(AggressiveRank(cs[w]), AggressiveRank(cs[j])) {
        assert ks[j] == AggressiveRank(cs[j]);
      }
    }
    assert forall v :: IsAggressiveChoice(cs, v) ==> v == w by {
      forall v | IsAggressiveChoice(cs, v) ensures v == w {
        AggressiveChoiceIsUnique(cs, v, w);
      }
    }
    w
  }

  /** The aggressive choice is unique: the characterization pins down the
      head of a stable sort by the comparator. */
  lemma AggressiveChoiceIsUnique(cs: seq<Candidate>, w1: nat, w2: nat)
    requires IsAggressiveChoice(cs, w1) && IsAggressiveChoice(cs, w2)
    ensures w1 == w2
  {
    assert cs[w1].inHours == cs[w2].inHours;
  }

  // ------------------------------------------------------------ capped modes

  /** When an advisor counts as within the allotment tolerance: its load is
      less than `tolerance` above the lowest (fixed mode), or strictly below
      a cap (proportional mode). */
  datatype CapRule = FixedGap(lowest: real, tolerance: real) | Ceiling(cap: real)

  predicate WithinCap(c: Candidate, rule: CapRule) {
    match rule
    case FixedGap(lowest, tolerance) => c.load - lowest < tolerance
    case Ceiling(cap) => c.load < cap
  }

  /** In hours first; then within the cap; within the cap, highest
      propensity then lowest load; over the cap, lowest load then highest
      propensity. */
  function CappedRank(c: Candidate, rule: CapRule): Rank {
    if WithinCap(c, rule) then Rank(!c.inHours, false, -c.propensity, c.load)
    else Rank(!c.inHours, true, c.load, -c.propensity)
  }

  /** The fixed-tolerance comparator as written; its sign is the order of
      the capped keys. */
  function FixedCompare(a: Candidate, b: Candidate, lowest: real, tolerance: real): (r: real)
    ensures r < 0.0 <==> Less(CappedRank(a, FixedGap(lowest, tolerance)), CappedRank(b, FixedGap(lowest, tolerance)))
    ensures r > 0.0 <==> Less(CappedRank(b, FixedGap(lowest, tolerance)), CappedRank(a, FixedGap(lowest, tolerance)))
  {
    if b.inHours && !a.inHours then 1.0
    else if a.inHours && !b.inHours then -1.0
    else if b.load - lowest < tolerance && a.load - lowest >= tolerance then 1.0
    else if a.load - lowest < tolerance && b.load - lowest >= tolerance then -1.0
    else if a.load - lowest >= tolerance && b.load - lowest >= tolerance && b.load != a.load then a.load - b.load
    else if b.propensity != a.propensity then b.propensity - a.propensity
    else a.load - b.load
  }

  /** The proportional-tolerance comparator as written; its sign is the
      order of the capped keys. */
  function ProportionalCompare(a: Candidate, b: Candidate, cap: real): (r: real)
    ensures r < 0.0 <==> Less(CappedRank(a, Ceiling(cap)), CappedRank(b, Ceiling(cap)))
    ensures r > 0.0 <==> Less(CappedRank(b, Ceiling(cap)), CappedRank(a, Ceiling(cap)))
  {
    if b.inHours && !a.inHours then 1.0
    else if a.inHours && !b.inHours then -1.0
    else if b.load < cap && a.load >= cap then 1.0
    else if a.load < cap && b.load >= cap then -1.0
    else if a.load >= cap && b.load >= cap && b.load != a.load then a.load - b.load
    else if b.propensity != a.propensity then b.propensity - a.propensity
    else a.load - b.load
  }

  /** Whether `cs[w]` is the advisor a tolerance-mode sort puts first: in
      hours if anyone is; within the cap if anyone of its hours class is;
      if within, of highest propensity (then lowest load) among those of
      its class within; if over, of lowest load (then highest propensity)
      in its class; and no earlier candidate ties it. */
  predicate IsCappedChoice(cs: seq<Candidate>, rule: CapRule, w: nat) {
    && w < |cs|
    && (forall j :: 0 <= j < |cs| && cs[j].inHours ==> cs[w].inHours)
    && (forall j :: 0 <= j < |cs| && cs[j].inHours == cs[w].inHours && WithinCap(cs[j], rule) ==> WithinCap(cs[w], rule))
    && (WithinCap(cs[w], rule) ==>
          forall j :: 0 <= j < |cs| && cs[j].inHours == cs[w].inHours && WithinCap(cs[j], rule) ==>
            && cs[j].propensity <= cs[w].propensity
            && (cs[j].propensity == cs[w].propensity ==> cs[w].load <= cs[j].load))
    && (!WithinCap(cs[w], rule) ==>
          forall j :: 0 <= j < |cs| && cs[j].inHours == cs[w].inHours ==>
            && cs[w].load <= cs[j].load
            && (cs[j].load == cs[w].load ==> cs[j].propensity <= cs[w].propensity))
    && (forall j :: 0 <= j < w ==>
          !(cs[j].inHours == cs[w].inHours && cs[j].propensity == cs[w].propensity && cs[j].load == cs[w].load))
  }

  function CappedRanks(cs: seq<Candidate>, rule: CapRule): (ks: seq<Rank>)
    ensures |ks| == |cs| && forall i :: 0 <= i < |cs| ==> ks[i] == CappedRank(cs[i], rule)
  {
    seq(|cs|, i requires 0 <= i < |cs| => CappedRank(cs[i], rule))
  }

  /** The head of a tolerance-mode sort: the one candidate that meets the
      characterization. */
  function SelectCapped(cs: seq<Candidate>, rule: CapRule): (w: nat)
    requires |cs| > 0
    ensures IsCappedChoice(cs, rule, w)
    ensures forall v :: IsCappedChoice(cs, rule, v) ==> v == w
  {
    var ks := CappedRanks(cs, rule);
    var w := FirstLeast(ks);
    assert forall j :: 0 <= j < |cs| ==> !Less(CappedRank(cs[j], rule), CappedRank(cs[w], rule)) by {
      forall j | 0 <= j < |cs| ensures !Less(CappedRank(cs[j], rule), CappedRank(cs[w], rule)) {
        assert ks[j] == CappedRank(cs[j], rule);
      }
    }
    assert forall j :: 0 <= j < w ==> Less(CappedRank(cs[w], rule), CappedRank(cs[j], rule)) by {
      forall j | 0 <= j < w ensures Less(CappedRank(cs[w], rule), CappedRank(cs[j], rule)) {
        assert ks[j] == CappedRank(cs[j], rule);
      }
    }
    assert forall v :: IsCappedChoice(cs, rule, v) ==> v == w by {
      forall v | IsCappedChoice(cs, rule, v) ensures v == w {
        CappedChoiceIsUnique(cs, rule, v, w);
      }
    }
    w
  }

  lemma CappedChoiceIsUnique(cs: seq<Candidate>, rule: CapRule, w1: nat, w2: nat)
    requires IsCappedChoice(cs, rule, w1) && IsCappedChoice(cs, rule, w2)
    ensures w1 == w2
  {
    assert cs[w1].inHours == cs[w2].inHours;
    assert WithinCap(cs[w1], rule) == WithinCap(cs[w2], rule);
  }
}

=== FILE: records.dfy ===
/** Advisor and lead records, the commit that follows every selection, and
    the bookkeeping facts every allocation pass keeps. */
module Records {
  import opened Outcomes

  /** The two portfolios the round-robin pass keeps queues for. */
  const Domestic: string := "Domestic"
  const Canada: string := "Canada"

  /** `lastAllocatedId` is the round-robin cursor (-1: never allocated). */
  datatype Advisor = Advisor(
    id: nat,
    portfolio: string,
    location: string,
    currentAllotment: real,
    lastAllocatedId: int)

  /** `propensity` maps an advisor id to this lead's predicted conversion
      with that advisor; `allocatedCa` is written by the pass. */
  datatype Lead = Lead(
    leadId: int,
    created: int,
    portfolio: string,
    propensity: map<nat, real>,
    allocatedCa: Option<nat>)

  /** The two tables a pass hands back. */
  datatype Allocation = Allocation(leads: seq<Lead>, advisors: seq<Advisor>)

  /** Advisor identity is positional: each advisor's id is its index. */
  predicate WellIndexed(advisors: seq<Advisor>) {
    forall i :: 0 <= i < |advisors| ==> advisors[i].id == i
  }

  predicate IsMatchingPortfolio(advisor: Advisor, lead: Lead) {
    advisor.portfolio == lead.portfolio
  }

  /** The fields a pass never writes. */
  predicate SameAdvisor(a: Advisor, b: Advisor) {
    a.id == b.id && a.portfolio == b.portfolio && a.location == b.location
  }

  function Assign(lead: Lead, advisor: nat): Lead {
    lead.(allocatedCa := Some(advisor))
  }

  /** Taking all of a sequence gives it back. */
  lemma TakeAll<T>(s: seq<T>)
    ensures s[..|s|] == s
  {
  }

  /** A prefix of a prefix is a prefix. */
  lemma TakeTake<T>(s: seq<T>, n: nat, k: nat)
    requires k <= n <= |s|
    ensures s[..n][..k] == s[..k]
    ensures k < n ==> s[..n][k] == s[k]
  {
  }

  /** The selected advisor takes one more lead. */
  function Commit(advisors: seq<Advisor>, w: nat): (r: seq<Advisor>)
    requires w < |advisors|
    ensures |r| == |advisors|
    ensures r[w].currentAllotment == advisors[w].currentAllotment + 1.0
    ensures r[w].lastAllocatedId == advisors[w].lastAllocatedId && SameAdvisor(r[w], advisors[w])
    ensures forall k :: 0 <= k < |r| && k != w ==> r[k] == advisors[k]
  {
    advisors[w := advisors[w].(currentAllotment := advisors[w].currentAllotment + 1.0)]
  }

  /** Sum of the live allotments. */
  function TotalLoad(advisors: seq<Advisor>): real {
    if |advisors| == 0 then 0.0
    else TotalLoad(advisors[..|advisors| - 1]) + advisors[|advisors| - 1].currentAllotment
  }

  /** How many of `leads` went to advisor `a`. */
  function Allotted(leads: seq<Lead>, a: nat): nat {
    if |leads| == 0 then 0
    else Allotted(leads[..|leads| - 1], a) + (if leads[|leads| - 1].allocatedCa == Some(a) then 1 else 0)
  }

  /** Two advisor tables whose allotments agree have the same total. */
  lemma {:induction false} TotalLoadOfAllotments(xs: seq<Advisor>, ys: seq<Advisor>)
    requires |xs| == |ys|
    requires forall k :: 0 <= k < |xs| ==> xs[k].currentAllotment == ys[k].currentAllotment
    ensures TotalLoad(xs) == TotalLoad(ys)
  {
    if |xs| > 0 {
      TotalLoadOfAllotments(xs[..|xs| - 1], ys[..|ys| - 1]);
    }
  }

  /** A commit raises the total allotment by exactly one. */
  lemma {:induction false} CommitAddsOne(advisors: seq<Advisor>, w: nat)
    requires w < |advisors|
    ensures TotalLoad(Commit(advisors, w)) == TotalLoad(advisors) + 1.0
  {
    var r := Commit(advisors, w);
    var n := |advisors|;
    if w == n - 1 {
      assert r[..n - 1] == advisors[..n - 1];
    } else {
      assert r[..n - 1] == Commit(advisors[..n - 1], w);
      CommitAddsOne(advisors[..n - 1], w);
    }
  }

  /** Some lead of `leads` went to `a` exactly when `a`'s count is positive. */
  lemma {:induction false} AllottedPositive(leads: seq<Lead>, a: nat)
    ensures Allotted(leads, a) > 0 <==> exists m :: 0 <= m < |leads| && leads[m].allocatedCa == Some(a)
  {
    if |leads| > 0 {
      var n := |leads|;
      AllottedPositive(leads[..n - 1], a);
      if Allotted(leads[..n - 1], a) > 0 {
        var m :| 0 <= m < n - 1 && leads[..n - 1][m].allocatedCa == Some(a);
        assert leads[m].allocatedCa == Some(a);
      }
      if exists m :: 0 <= m < n && leads[m].allocatedCa == Some(a) {
        var m :| 0 <= m < n && leads[m].allocatedCa == Some(a);
        if m < n - 1 {
          assert leads[..n - 1][m].allocatedCa == Some(a);
        }
      }
    }
  }

  /** The bookkeeping a successful pass keeps, relative to the advisor
      table it started from: every lead, and nothing else about it, gets
      exactly one allocated advisor; each advisor's live allotment grew by
      the number of leads it took; the total grew by the number of leads. */
  predicate Conserves(before: seq<Advisor>, leadsIn: seq<Lead>, leadsOut: seq<Lead>, after: seq<Advisor>) {
    && |leadsOut| == |leadsIn|
    && |after| == |before|
    && (forall i :: 0 <= i < |leadsOut| ==>
          && leadsOut[i].allocatedCa.Some?
          && leadsOut[i].allocatedCa.value < |before|
          && leadsOut[i] == Assign(leadsIn[i], leadsOut[i].allocatedCa.value))
    && (forall a :: 0 <= a < |after| ==>
          && SameAdvisor(after[a], before[a])
          && after[a].currentAllotment == before[a].currentAllotment + Allotted(leadsOut, a) as real)
    && TotalLoad(after) == TotalLoad(before) + |leadsIn| as real
  }

  /** Every lead went to an advisor of its own portfolio. */
  predicate RespectsPortfolio(leadsOut: seq<Lead>, advisors: seq<Advisor>) {
    forall i :: 0 <= i < |leadsOut| ==>
      && leadsOut[i].allocatedCa.Some?
      && leadsOut[i].allocatedCa.value < |advisors|
      && advisors[leadsOut[i].allocatedCa.value].portfolio == leadsOut[i].portfolio
  }

  lemma ConservesAtStart(advisors: seq<Advisor>)
    ensures Conserves(advisors, [], [], advisors)
    ensures RespectsPortfolio([], advisors)
  {
  }

  /** Committing the last lead of `leadsIn` to an advisor of its portfolio
      extends both facts from the leads before it to all of `leadsIn`. */
  lemma {:induction false} ConservesStep(before: seq<Advisor>, leadsIn: seq<Lead>, leadsOut: seq<Lead>,
                                         after: seq<Advisor>, w: nat)
    requires |leadsIn| > 0
    requires Conserves(before, leadsIn[..|leadsIn| - 1], leadsOut, after)
    requires RespectsPortfolio(leadsOut, before)
    requires w < |after| && after[w].portfolio == leadsIn[|leadsIn| - 1].portfolio
    ensures Conserves(before, leadsIn, leadsOut + [Assign(leadsIn[|leadsIn| - 1], w)], Commit(after, w))
    ensures RespectsPortfolio(leadsOut + [Assign(leadsIn[|leadsIn| - 1], w)], before)
  {
    var lead := leadsIn[|leadsIn| - 1];
    var lo := leadsOut + [Assign(lead, w)];
    var r := Commit(after, w);
    assert lo[..|lo| - 1] == leadsOut;
    forall a | 0 <= a < |r|
      ensures r[a].currentAllotment == before[a].currentAllotment + Allotted(lo, a) as real
    {
      assert Allotted(lo, a) == Allotted(leadsOut, a) + (if a == w then 1 else 0);
    }
    forall i | 0 <= i < |lo|
      ensures lo[i] == Assign(leadsIn[i], lo[i].allocatedCa.value)
    {
      if i < |leadsOut| {
        assert lo[i] == leadsOut[i] && leadsIn[i] == leadsIn[..|leadsIn| - 1][i];
      }
    }
    CommitAddsOne(after, w);
  }

  /** Conservation does not look at the round-robin cursors: a table that
      differs only in cursors conserves as well. */
  lemma ConservesIgnoresCursors(before: seq<Advisor>, leadsIn: seq<Lead>, leadsOut: seq<Lead>,
                                after: seq<Advisor>, after': seq<Advisor>)
    requires Conserves(before, leadsIn, leadsOut, after)
    requires |after'| == |after|
    requires forall a :: 0 <= a < |after| ==>
               SameAdvisor(after'[a], after[a]) && after'[a].currentAllotment == after[a].currentAllotment
    ensures Conserves(before, leadsIn, leadsOut, after')
  {
    TotalLoadOfAllotments(after, after');
  }
}

=== FILE: round_robin.dfy ===
/** The round-robin pass.  Cursors are reset to -1; the Domestic and the
    Canada advisors each form a queue that is stably re-sorted, in place,
    by cursor for every lead of that portfolio.  The first advisor of the
    re-sorted queue who is in working hours takes the lead, or the head of
    the queue if nobody is; its cursor becomes the lead's id. */
module RoundRobin {
  import opened Outcomes
  import opened Records
  import opened CursorSort
  import Calendar

  function Cursors(advisors: seq<Advisor>): (ks: seq<int>)
    ensures |ks| == |advisors|
    ensures forall i :: 0 <= i < |advisors| ==> ks[i] == advisors[i].lastAllocatedId
  {
    seq(|advisors|, i requires 0 <= i < |advisors| => advisors[i].lastAllocatedId)
  }

  /** The cursor the source gives an advisor that has taken no lead yet. */
  const NeverAllocated: int := -1

  /** Every cursor set to `initial`, the value marking "no lead taken yet". */
  function ResetCursors(advisors: seq<Advisor>, initial: int): (r: seq<Advisor>)
    ensures |r| == |advisors|
    ensures forall i :: 0 <= i < |advisors| ==> r[i] == advisors[i].(lastAllocatedId := initial)
  {
    seq(|advisors|, i requires 0 <= i < |advisors| => advisors[i].(lastAllocatedId := initial))
  }

  /** The indices of the first `n` advisors in portfolio `p`, in table order. */
  function PortfolioIndices(advisors: seq<Advisor>, p: string, n: nat): (r: seq<nat>)
    requires n <= |advisors|
    ensures forall k :: 0 <= k < |r| ==> r[k] < n
    ensures forall x: nat :: x in r <==> x < n && advisors[x].portfolio == p
    ensures forall k, l :: 0 <= k < l < |r| ==> r[k] < r[l]
  {
    if n == 0 then []
    else
      var prev := PortfolioIndices(advisors, p, n - 1);
      if advisors[n - 1].portfolio == p then prev + [n - 1] else prev
  }

  /** `q` holds exactly the advisors of portfolio `p`. */
  ghost predicate IsQueue(q: seq<nat>, advisors: seq<Advisor>, p: string) {
    && (forall k :: 0 <= k < |q| ==> q[k] < |advisors|)
    && (forall x: nat :: x in q <==> x < |advisors| && advisors[x].portfolio == p)
  }

  /** The state threaded through the pass. */
  datatype RoundRobinRun = RoundRobinRun(advisors: seq<Advisor>, domestic: seq<nat>, canada: seq<nat>, leads: seq<Lead>)

  ghost predicate ValidRun(run: RoundRobinRun) {
    && WellIndexed(run.advisors)
    && IsQueue(run.domestic, run.advisors, Domestic)
    && IsQueue(run.canada, run.advisors, Canada)
  }

  function Start(advisors: seq<Advisor>, initial: int): (run: RoundRobinRun)
    requires WellIndexed(advisors)
    ensures ValidRun(run) && run.leads == []
    ensures |run.advisors| == |advisors|
    ensures forall a :: 0 <= a < |advisors| ==> run.advisors[a].lastAllocatedId == initial
  {
    var reset := ResetCursors(advisors, initial);
    RoundRobinRun(reset, PortfolioIndices(reset, Domestic, |reset|), PortfolioIndices(reset, Canada, |reset|), [])
  }

  /** `a` is in working hours at the lead's creation. */
  predicate OnDuty(lead: Lead, a: Advisor) {
    Calendar.IsInWorkingHours(lead.created, a.location) == Some(true)
  }

  /** The working-hours flag of each advisor of `order`, read front to back;
      the first unknown location stops the pass. */
  function HoursFlags(order: seq<nat>, advisors: seq<Advisor>, t: int): (r: Result<seq<bool>>)
    requires forall k :: 0 <= k < |order| ==> order[k] < |advisors|
    ensures r.Ok? <==> forall k :: 0 <= k < |order| ==> Calendar.TimezoneOf(advisors[order[k]].location).Some?
    ensures r.Ok? ==> |r.value| == |order|
    ensures r.Ok? ==> forall k :: 0 <= k < |order| ==>
                        Calendar.IsInWorkingHours(t, advisors[order[k]].location) == Some(r.value[k])
  {
    if |order| == 0 then Ok([])
    else match Calendar.IsInWorkingHours(t, advisors[order[0]].location)
      case None => Err(UnknownLocation(advisors[order[0]].location))
      case Some(open) =>
        var rest :- HoursFlags(order[1..], advisors, t);
        assert forall k :: 1 <= k < |order| ==> order[1..][k - 1] == order[k];
        Ok([open] + rest)
  }

  /** The first set flag, or the length if none is set. */
  function FirstOpen(flags: seq<bool>): (k: nat)
    ensures k <= |flags|
    ensures k < |flags| ==> flags[k]
    ensures forall j :: 0 <= j < k ==> !flags[j]
  {
    if |flags| == 0 || flags[0] then 0 else 1 + FirstOpen(flags[1..])
  }

  /** The position taken from a re-sorted queue whose working-hours flags
      are `flags`: the first advisor in hours, else the head. */
  function Choice(flags: seq<bool>): (p: nat)
    requires |flags| > 0
    ensures p < |flags|
    ensures forall k :: 0 <= k < p ==> !flags[k]
    ensures (exists k :: 0 <= k < |flags| && flags[k]) ==> flags[p]
    ensures (forall k :: 0 <= k < |flags| ==> !flags[k]) ==> p == 0
  {
    var k := FirstOpen(flags);
    if k < |flags| then k else 0
  }

  /** The selected advisor and the re-sorted queue. */
  datatype Pick = Pick(advisor: nat, queue: seq<nat>)

  predicate Eligible(lead: Lead, advisors: seq<Advisor>, j: int) {
    0 <= j < |advisors| && IsMatchingPortfolio(advisors[j], lead)
  }

  /** The queue of the lead's portfolio; round robin knows no other. */
  function QueueFor(run: RoundRobinRun, lead: Lead): (r: Result<seq<nat>>)
    ensures r.Ok? <==> lead.portfolio == Domestic || lead.portfolio == Canada
    ensures ValidRun(run) && r.Ok? ==> IsQueue(r.value, run.advisors, lead.portfolio)
  {
    if lead.portfolio == Domestic then Ok(run.domestic)
    else if lead.portfolio == Canada then Ok(run.canada)
    else Err(UnknownPortfolio(lead.leadId))
  }

  /** `w` is the advisor round robin owes the lead: one of its portfolio,
      in working hours if any advisor of the portfolio is, and then holding
      the least cursor among those in hours; if out of hours, holding the
      least cursor of the whole portfolio. */
  ghost predicate LeastRecentOnDuty(lead: Lead, advisors: seq<Advisor>, w: nat) {
    && Eligible(lead, advisors, w)
    && ((exists j :: Eligible(lead, advisors, j) && OnDuty(lead, advisors[j])) ==> OnDuty(lead, advisors[w]))
    && (forall j :: Eligible(lead, advisors, j) && OnDuty(lead, advisors[j]) ==>
          advisors[w].lastAllocatedId <= advisors[j].lastAllocatedId)
    && (!OnDuty(lead, advisors[w]) ==>
          forall j :: Eligible(lead, advisors, j) ==> advisors[w].lastAllocatedId <= advisors[j].lastAllocatedId)
  }

  /** The selection for one lead: the least recently served advisor of the
      lead's portfolio, preferring those in working hours. */
  function PickAdvisor(run: RoundRobinRun, lead: Lead): (r: Result<Pick>)
    requires ValidRun(run)
    ensures r.Ok? ==> QueueFor(run, lead).Ok?
    ensures lead.portfolio != Domestic && lead.portfolio != Canada ==> r == Err(UnknownPortfolio(lead.leadId))
    ensures (forall j :: 0 <= j < |run.advisors| ==> !Eligible(lead, run.advisors, j)) ==> r.Err?
    ensures r.Ok? ==> |r.value.queue| > 0 && r.value.advisor < |run.advisors|
    ensures r.Ok? ==> LeastRecentOnDuty(lead, run.advisors, r.value.advisor)
    ensures r.Ok? ==> r.value.queue == Sort(QueueFor(run, lead).value, Cursors(run.advisors))
    ensures r.Ok? ==> HoursFlags(r.value.queue, run.advisors, lead.created).Ok?
    ensures r.Ok? ==> r.value.advisor == r.value.queue[Choice(HoursFlags(r.value.queue, run.advisors, lead.created).value)]
  {
    var queue :- QueueFor(run, lead);
    var keys := Cursors(run.advisors);
    var sorted := Sort(queue, keys);
    var flags :- HoursFlags(sorted, run.advisors, lead.created);
    if |sorted| == 0 then Err(NoEligibleAdvisor(lead.leadId))
    else
      ChosenIsLeastRecent(run, lead, flags);
      Ok(Pick(sorted[Choice(flags)], sorted))
  }

  /** The advisor at the chosen position of the re-sorted queue is the one
      round robin owes the lead. */
  lemma ChosenIsLeastRecent(run: RoundRobinRun, lead: Lead, flags: seq<bool>)
    requires ValidRun(run) && QueueFor(run, lead).Ok?
    requires var sorted := Sort(QueueFor(run, lead).value, Cursors(run.advisors));
             |sorted| > 0 && HoursFlags(sorted, run.advisors, lead.created) == Ok(flags)
    ensures var sorted := Sort(QueueFor(run, lead).value, Cursors(run.advisors));
            LeastRecentOnDuty(lead, run.advisors, sorted[Choice(flags)])
  {
    QueueMembers(run, lead);
    var keys := Cursors(run.advisors);
    var sorted := Sort(QueueFor(run, lead).value, keys);
    var p := Choice(flags);
    var w := sorted[p];
    assert sorted[p] in sorted;
    ChoiceHoldsLeastCursor(sorted, keys, flags);
    forall j | Eligible(lead, run.advisors, j)
      ensures OnDuty(lead, run.advisors[j]) ==> OnDuty(lead, run.advisors[w]) && keys[w] <= keys[j]
      ensures !OnDuty(lead, run.advisors[w]) ==> keys[w] <= keys[j]
    {
      var q :| 0 <= q < |sorted| && sorted[q] == j;
      assert flags[q] == OnDuty(lead, run.advisors[j]);
    }
  }

  /** The re-sorted queue holds exactly the advisors of the lead's portfolio. */
  lemma QueueMembers(run: RoundRobinRun, lead: Lead)
    requires ValidRun(run) && QueueFor(run, lead).Ok?
    ensures ValidOrder(QueueFor(run, lead).value, Cursors(run.advisors))
    ensures forall j :: 0 <= j < |run.advisors| ==>
              (j in Sort(QueueFor(run, lead).value, Cursors(run.advisors)) <==> Eligible(lead, run.advisors, j))
  {
    var queue := QueueFor(run, lead).value;
    var sorted := Sort(queue, Cursors(run.advisors));
    forall x ensures x in sorted <==> x in queue {
      assert x in sorted <==> x in multiset(sorted);
    }
  }

  /** In a queue sorted by cursor, the chosen position holds the least
      cursor among the flagged advisors, or among all if none is flagged. */
  lemma ChoiceHoldsLeastCursor(sorted: seq<nat>, keys: seq<int>, flags: seq<bool>)
    requires SortedByKey(sorted, keys) && |flags| == |sorted| > 0
    ensures forall q :: 0 <= q < |sorted| && flags[q] ==>
              flags[Choice(flags)] && keys[sorted[Choice(flags)]] <= keys[sorted[q]]
    ensures !flags[Choice(flags)] ==> forall q :: 0 <= q < |sorted| ==> keys[sorted[Choice(flags)]] <= keys[sorted[q]]
  {
  }

  /** What the round-robin selection means.  A lead outside the two
      portfolios, or with no advisor of its portfolio, stops the pass.
      Otherwise the winner is of the lead's portfolio; it is in working
      hours if any such advisor is, and then holds the least cursor among
      those in hours; if it is out of hours, it holds the least cursor of
      its whole portfolio.  The queue is stably re-sorted by cursor and the
      winner is the first advisor in it who is in hours, else its head. */
  lemma PickAdvisorSelects(run: RoundRobinRun, lead: Lead)
    requires ValidRun(run)
    ensures lead.portfolio != Domestic && lead.portfolio != Canada ==> PickAdvisor(run, lead) == Err(UnknownPortfolio(lead.leadId))
    ensures (forall j :: 0 <= j < |run.advisors| ==> !Eligible(lead, run.advisors, j)) ==> PickAdvisor(run, lead).Err?
    ensures PickAdvisor(run, lead).Ok? ==> (
              var w := PickAdvisor(run, lead).value.advisor;
              && Eligible(lead, run.advisors, w)
              && ((exists j :: Eligible(lead, run.advisors, j) && OnDuty(lead, run.advisors[j])) ==> OnDuty(lead, run.advisors[w]))
              && (forall j :: Eligible(lead, run.advisors, j) && OnDuty(lead, run.advisors[j]) ==>
                    run.advisors[w].lastAllocatedId <= run.advisors[j].lastAllocatedId)
              && (!OnDuty(lead, run.advisors[w]) ==>
                    forall j :: Eligible(lead, run.advisors, j) ==> run.advisors[w].lastAllocatedId <= run.advisors[j].lastAllocatedId))
  {
    if QueueFor(run, lead).Ok? {
      QueueMembers(run, lead);
    }
  }

  /** The queue after a pick is the old one stably re-sorted by cursor, and
      the winner is its first advisor in working hours, else its head. */
  lemma PickAdvisorQueue(run: RoundRobinRun, lead: Lead)
    requires ValidRun(run) && PickAdvisor(run, lead).Ok?
    ensures var q := PickAdvisor(run, lead).value.queue;
            var w := PickAdvisor(run, lead).value.advisor;
            && multiset(q) == multiset(QueueFor(run, lead).value)
            && SortedByKey(q, Cursors(run.advisors))
            && (forall k :: WithKey(q, Cursors(run.advisors), k) == WithKey(QueueFor(run, lead).value, Cursors(run.advisors), k))
            && (exists p :: 0 <= p < |q| && q[p] == w && forall k :: 0 <= k < p ==> !OnDuty(lead, run.advisors[q[k]]))
            && ((exists k :: 0 <= k < |q| && OnDuty(lead, run.advisors[q[k]])) ==> OnDuty(lead, run.advisors[w]))
            && ((forall k :: 0 <= k < |q| ==> !OnDuty(lead, run.advisors[q[k]])) ==> w == q[0])
  {
    var q := PickAdvisor(run, lead).value.queue;
    var flags := HoursFlags(q, run.advisors, lead.created).value;
    var p := Choice(flags);
    forall k | 0 <= k < |q| ensures flags[k] <==> OnDuty(lead, run.advisors[q[k]]) {
    }
  }

  /** The cursor of advisor `a` as the leads `leads` leave it: the id of
      the last lead it took, or `initial`. */
  function LastLeadId(leads: seq<Lead>, a: nat, initial: int): int {
    if |leads| == 0 then initial
    else if leads[|leads| - 1].allocatedCa == Some(a) then leads[|leads| - 1].leadId
    else LastLeadId(leads[..|leads| - 1], a, initial)
  }

  /** The table after advisor `w` takes the lead: one more lead, and the
      lead's id as cursor. */
  function Stamp(advisors: seq<Advisor>, w: nat, leadId: int): (r: seq<Advisor>)
    requires w < |advisors|
    ensures |r| == |advisors|
    ensures r[w].lastAllocatedId == leadId
    ensures r[w].currentAllotment == advisors[w].currentAllotment + 1.0 && SameAdvisor(r[w], advisors[w])
    ensures forall a :: 0 <= a < |advisors| && a != w ==> r[a] == advisors[a]
  {
    var committed := Commit(advisors, w);
    committed[w := committed[w].(lastAllocatedId := leadId)]
  }

  /** One lead: select, stamp the cursor, commit. */
  function Step(run: RoundRobinRun, lead: Lead): (r: Result<RoundRobinRun>)
    requires ValidRun(run)
    ensures r.Ok? <==> PickAdvisor(run, lead).Ok?
    ensures r.Ok? ==>
              var w := PickAdvisor(run, lead).value.advisor;
              && r.value.leads == run.leads + [Assign(lead, w)]
              && r.value.advisors == Stamp(run.advisors, w, lead.leadId)
  {
    var pick :- PickAdvisor(run, lead);
    var w := pick.advisor;
    var id := run.advisors[w].id;
    var domestic := if lead.portfolio == Domestic then pick.queue else run.domestic;
    var canada := if lead.portfolio == Canada then pick.queue else run.canada;
    Ok(RoundRobinRun(Stamp(run.advisors, id, lead.leadId), domestic, canada, run.leads + [Assign(lead, id)]))
  }

  /** A queue stays a queue under a permutation and a table whose
      portfolios are unchanged. */
  lemma QueueKept(q: seq<nat>, q': seq<nat>, advisors: seq<Advisor>, advisors': seq<Advisor>, p: string)
    requires IsQueue(q, advisors, p) && multiset(q') == multiset(q) && |advisors'| == |advisors|
    requires forall x :: 0 <= x < |advisors| ==> advisors'[x].portfolio == advisors[x].portfolio
    ensures IsQueue(q', advisors', p)
  {
    forall x: nat ensures x in q' <==> x in q {
      assert x in q' <==> x in multiset(q');
      assert x in q <==> x in multiset(q);
    }
    forall k | 0 <= k < |q'| ensures q'[k] < |advisors'| {
      assert q'[k] in q';
    }
  }

  lemma StepKeepsQueues(run: RoundRobinRun, lead: Lead)
    requires ValidRun(run) && Step(run, lead).Ok?
    ensures ValidRun(Step(run, lead).value)
  {
    var next := Step(run, lead).value;
    var pick := PickAdvisor(run, lead).value;
    assert forall x :: 0 <= x < |run.advisors| ==> SameAdvisor(next.advisors[x], run.advisors[x]);
    if lead.portfolio == Domestic {
      assert next.domestic == pick.queue && next.canada == run.canada;
    } else {
      assert lead.portfolio == Canada;
      assert next.domestic == run.domestic && next.canada == pick.queue;
    }
    QueueKept(run.domestic, next.domestic, run.advisors, next.advisors, Domestic);
    QueueKept(run.canada, next.canada, run.advisors, next.advisors, Canada);
  }

  /** Facts the fold keeps after each lead. */
  ghost predicate LoopInvariant(advisors: seq<Advisor>, leads: seq<Lead>, run: RoundRobinRun, initial: int) {
    && ValidRun(run)
    && Conserves(advisors, leads, run.leads, run.advisors)
    && RespectsPortfolio(run.leads, advisors)
    && forall a :: 0 <= a < |advisors| ==> run.advisors[a].lastAllocatedId == LastLeadId(run.leads, a, initial)
  }

  lemma StartEstablishes(advisors: seq<Advisor>, initial: int)
    requires WellIndexed(advisors)
    ensures LoopInvariant(advisors, [], Start(advisors, initial), initial)
  {
    ConservesAtStart(advisors);
    ConservesIgnoresCursors(advisors, [], [], advisors, Start(advisors, initial).advisors);
  }

  /** One lead keeps the conservation and portfolio facts. */
  lemma StepConserves(advisors: seq<Advisor>, leads: seq<Lead>, run: RoundRobinRun)
    requires |leads| > 0 && ValidRun(run) && Step(run, leads[|leads| - 1]).Ok?
    requires Conserves(advisors, leads[..|leads| - 1], run.leads, run.advisors) && RespectsPortfolio(run.leads, advisors)
    ensures Conserves(advisors, leads, Step(run, leads[|leads| - 1]).value.leads, Step(run, leads[|leads| - 1]).value.advisors)
    ensures RespectsPortfolio(Step(run, leads[|leads| - 1]).value.leads, advisors)
  {
    var lead := leads[|leads| - 1];
    var next := Step(run, lead).value;
    PickAdvisorSelects(run, lead);
    var w := PickAdvisor(run, lead).value.advisor;
    ConservesStep(advisors, leads, run.leads, run.advisors, w);
    ConservesIgnoresCursors(advisors, leads, next.leads, Commit(run.advisors, w), next.advisors);
  }

  /** One lead keeps every cursor equal to the id of the advisor's last lead. */
  lemma StepCursors(advisors: seq<Advisor>, run: RoundRobinRun, lead: Lead, initial: int)
    requires ValidRun(run) && Step(run, lead).Ok? && |run.advisors| == |advisors|
    requires forall a :: 0 <= a < |advisors| ==> run.advisors[a].lastAllocatedId == LastLeadId(run.leads, a, initial)
    ensures forall a :: 0 <= a < |advisors| ==>
              Step(run, lead).value.advisors[a].lastAllocatedId == LastLeadId(Step(run, lead).value.leads, a, initial)
  {
    var next := Step(run, lead).value;
    assert next.leads[..|next.leads| - 1] == run.leads;
  }

  lemma StepPreserves(advisors: seq<Advisor>, leads: seq<Lead>, run: RoundRobinRun, initial: int)
    requires |leads| > 0 && LoopInvariant(advisors, leads[..|leads| - 1], run, initial) && Step(run, leads[|leads| - 1]).Ok?
    ensures LoopInvariant(advisors, leads, Step(run, leads[|leads| - 1]).value, initial)
  {
    StepKeepsQueues(run, leads[|leads| - 1]);
    StepConserves(advisors, leads, run);
    StepCursors(advisors, run, leads[|leads| - 1], initial);
  }

  /** The fold over the leads, the cursors starting at `initial`. */
  function Loop(leads: seq<Lead>, advisors: seq<Advisor>, initial: int): (r: Result<RoundRobinRun>)
    requires WellIndexed(advisors)
    ensures r.Ok? ==> LoopInvariant(advisors, leads, r.value, initial)
  {
    if |leads| == 0 then
      StartEstablishes(advisors, initial);
      Ok(Start(advisors, initial))
    else
      var prev :- Loop(leads[..|leads| - 1], advisors, initial);
      var lead := leads[|leads| - 1];
      var next :- Step(prev, lead);
      StepPreserves(advisors, leads, prev, initial);
      Ok(next)
  }

  /** The pass over a prefix `pre` of the leads is the start of the pass
      over all of them: a later lead never changes how an earlier one went. */
  lemma {:induction false} LoopPrefix(leads: seq<Lead>, advisors: seq<Advisor>, initial: int, pre: seq<Lead>)
    requires WellIndexed(advisors) && |pre| <= |leads| && leads[..|pre|] == pre && Loop(leads, advisors, initial).Ok?
    ensures Loop(pre, advisors, initial).Ok?
    ensures Loop(leads, advisors, initial).value.leads[..|pre|] == Loop(pre, advisors, initial).value.leads
    decreases |leads|
  {
    var out := Loop(leads, advisors, initial).value.leads;
    if |pre| == |leads| {
      TakeAll(leads);
      TakeAll(out);
    } else {
      var prefix := leads[..|leads| - 1];
      LoopLeadsGrow(leads, advisors, initial);
      TakeTake(leads, |leads| - 1, |pre|);
      LoopPrefix(prefix, advisors, initial, pre);
      TakeTake(out, |leads| - 1, |pre|);
    }
  }

  /** The leads of the pass over all but the last lead start the leads of
      the pass over all of them. */
  lemma LoopLeadsGrow(leads: seq<Lead>, advisors: seq<Advisor>, initial: int)
    requires WellIndexed(advisors) && |leads| > 0 && Loop(leads, advisors, initial).Ok?
    ensures Loop(leads[..|leads| - 1], advisors, initial).Ok?
    ensures Loop(leads, advisors, initial).value.leads[..|leads| - 1] == Loop(leads[..|leads| - 1], advisors, initial).value.leads
  {
    LoopUnfold(leads, advisors, initial);
    var prev := Loop(leads[..|leads| - 1], advisors, initial).value;
    var out := Loop(leads, advisors, initial).value.leads;
    assert |prev.leads| == |leads| - 1;
    assert out == prev.leads + [Assign(leads[|leads| - 1], PickAdvisor(prev, leads[|leads| - 1]).value.advisor)];
  }

  /** One step of `Loop` unfolded. */
  lemma LoopUnfold(leads: seq<Lead>, advisors: seq<Advisor>, initial: int)
    requires WellIndexed(advisors) && |leads| > 0 && Loop(leads, advisors, initial).Ok?
    ensures Loop(leads[..|leads| - 1], advisors, initial).Ok?
    ensures Step(Loop(leads[..|leads| - 1], advisors, initial).value, leads[|leads| - 1]).Ok?
    ensures Loop(leads, advisors, initial).value == Step(Loop(leads[..|leads| - 1], advisors, initial).value, leads[|leads| - 1]).value
  {
    var prev := Loop(leads[..|leads| - 1], advisors, initial);
    assert prev.Ok?;
    var next := Step(prev.value, leads[|leads| - 1]);
    assert next.Ok?;
    assert Loop(leads, advisors, initial) == next;
  }

  /** Lead `i` of the pass goes to the selection made on the run the leads
      before it left. */
  lemma EachLeadIsPicked(leads: seq<Lead>, advisors: seq<Advisor>, initial: int, i: nat)
    requires WellIndexed(advisors) && i < |leads| && Loop(leads, advisors, initial).Ok?
    ensures Loop(leads[..i], advisors, initial).Ok?
    ensures PickAdvisor(Loop(leads[..i], advisors, initial).value, leads[i]).Ok?
    ensures Loop(leads, advisors, initial).value.leads[..i] == Loop(leads[..i], advisors, initial).value.leads
    ensures Loop(leads, advisors, initial).value.leads[i]
         == Assign(leads[i], PickAdvisor(Loop(leads[..i], advisors, initial).value, leads[i]).value.advisor)
  {
    LoopPrefix(leads, advisors, initial, leads[..i + 1]);
    LoopPrefix(leads, advisors, initial, leads[..i]);
    LoopLast(leads, advisors, initial, i);
    TakeTake(Loop(leads, advisors, initial).value.leads, i + 1, i);
  }

  /** Lead `i` of the pass over the first `i + 1` leads goes to the pick on
      the run the first `i` left. */
  lemma LoopLast(leads: seq<Lead>, advisors: seq<Advisor>, initial: int, i: nat)
    requires WellIndexed(advisors) && i < |leads| && Loop(leads[..i + 1], advisors, initial).Ok?
    ensures Loop(leads[..i], advisors, initial).Ok?
    ensures PickAdvisor(Loop(leads[..i], advisors, initial).value, leads[i]).Ok?
    ensures Loop(leads[..i + 1], advisors, initial).value.leads[i]
         == Assign(leads[i], PickAdvisor(Loop(leads[..i], advisors, initial).value, leads[i]).value.advisor)
  {
    TakeTake(leads, i + 1, i);
    LoopUnfold(leads[..i + 1], advisors, initial);
  }

  /** What round robin gives lead `lead`, whose earlier leads went as in
      `prev`: an advisor of its portfolio; one in working hours if any of
      the portfolio is; among those in hours, one that took a lead least
      recently; and when it is out of hours, least recently of the whole
      portfolio.  Cursors are the ids of each advisor's last lead in
      `prev`, or `initial`. */
  ghost predicate PickedLeastRecent(lead: Lead, advisors: seq<Advisor>, prev: seq<Lead>, pick: Option<nat>, initial: int) {
    && pick.Some? && Eligible(lead, advisors, pick.value)
    && ((exists j :: Eligible(lead, advisors, j) && OnDuty(lead, advisors[j])) ==> OnDuty(lead, advisors[pick.value]))
    && (forall j :: Eligible(lead, advisors, j) && OnDuty(lead, advisors[j]) ==>
          LastLeadId(prev, pick.value, initial) <= LastLeadId(prev, j, initial))
    && (!OnDuty(lead, advisors[pick.value]) ==>
          forall j :: Eligible(lead, advisors, j) ==> LastLeadId(prev, pick.value, initial) <= LastLeadId(prev, j, initial))
  }

  /** Every lead of `out` was picked as round robin picks. */
  ghost predicate PicksLeastRecent(leads: seq<Lead>, advisors: seq<Advisor>, out: seq<Lead>, initial: int) {
    |out| == |leads| && forall i :: 0 <= i < |leads| ==> PickedLeastRecent(leads[i], advisors, out[..i], out[i].allocatedCa, initial)
  }

  /** The pass picks every lead as round robin promises. */
  lemma LoopPicksLeastRecent(leads: seq<Lead>, advisors: seq<Advisor>, initial: int)
    requires WellIndexed(advisors) && Loop(leads, advisors, initial).Ok?
    ensures PicksLeastRecent(leads, advisors, Loop(leads, advisors, initial).value.leads, initial)
  {
    var out := Loop(leads, advisors, initial).value.leads;
    forall i | 0 <= i < |leads|
      ensures PickedLeastRecent(leads[i], advisors, out[..i], out[i].allocatedCa, initial)
    {
      EachLeadIsPicked(leads, advisors, initial, i);
      var run := Loop(leads[..i], advisors, initial).value;
      var lead := leads[i];
      PickAdvisorSelects(run, lead);
      var w := PickAdvisor(run, lead).value.advisor;
      assert out[i].allocatedCa == Some(w);
      forall j | 0 <= j < |advisors|
        ensures Eligible(lead, run.advisors, j) == Eligible(lead, advisors, j)
        ensures OnDuty(lead, run.advisors[j]) == OnDuty(lead, advisors[j])
        ensures run.advisors[j].lastAllocatedId == LastLeadId(out[..i], j, initial)
      {
        assert SameAdvisor(run.advisors[j], advisors[j]);
      }
    }
  }

  /** A lead round robin can place: its portfolio has a queue and at least
      one advisor, and every advisor of that portfolio has a location in
      the timezone table. */
  ghost predicate Placeable(lead: Lead, advisors: seq<Advisor>) {
    && (lead.portfolio == Domestic || lead.portfolio == Canada)
    && (exists j :: Eligible(lead, advisors, j))
    && (forall j :: Eligible(lead, advisors, j) ==> Calendar.TimezoneOf(advisors[j].location).Some?)
  }

  /** The selection fails exactly for a lead that cannot be placed. */
  lemma PickAdvisorSucceeds(run: RoundRobinRun, lead: Lead)
    requires ValidRun(run)
    ensures PickAdvisor(run, lead).Ok? <==> Placeable(lead, run.advisors)
  {
    if QueueFor(run, lead).Ok? {
      QueueMembers(run, lead);
      var sorted := Sort(QueueFor(run, lead).value, Cursors(run.advisors));
      if |sorted| > 0 {
        assert sorted[0] in sorted;
        assert Eligible(lead, run.advisors, sorted[0]);
      }
      if Placeable(lead, run.advisors) {
        var j :| Eligible(lead, run.advisors, j);
        assert j in sorted;
        forall k | 0 <= k < |sorted| ensures Calendar.TimezoneOf(run.advisors[sorted[k]].location).Some? {
          assert sorted[k] in sorted;
        }
      } else if (exists j :: Eligible(lead, run.advisors, j)) {
        var j :| Eligible(lead, run.advisors, j) && Calendar.TimezoneOf(run.advisors[j].location).None?;
        var k :| 0 <= k < |sorted| && sorted[k] == j;
        assert Calendar.TimezoneOf(run.advisors[sorted[k]].location).None?;
        assert HoursFlags(sorted, run.advisors, lead.created).Err?;
      } else {
        assert PickAdvisor(run, lead).Err?;
      }
    }
  }

  /** Placeability reads only the advisors' portfolios and locations. */
  lemma PlaceableKept(lead: Lead, advisors: seq<Advisor>, advisors': seq<Advisor>)
    requires |advisors'| == |advisors| && forall a :: 0 <= a < |advisors| ==> SameAdvisor(advisors'[a], advisors[a])
    ensures Placeable(lead, advisors') == Placeable(lead, advisors)
  {
    assert forall j :: Eligible(lead, advisors', j) == Eligible(lead, advisors, j);
  }

  /** The pass over a non-empty list succeeds exactly when the pass over
      all but the last lead does and the last lead's step does. */
  lemma LoopOkStep(leads: seq<Lead>, advisors: seq<Advisor>, initial: int)
    requires WellIndexed(advisors) && |leads| > 0
    ensures Loop(leads, advisors, initial).Ok? <==>
              Loop(leads[..|leads| - 1], advisors, initial).Ok?
              && Step(Loop(leads[..|leads| - 1], advisors, initial).value, leads[|leads| - 1]).Ok?
  {
    if Loop(leads, advisors, initial).Ok? {
      LoopUnfold(leads, advisors, initial);
    }
  }

  /** Every lead of `leads` can be placed. */
  ghost predicate AllPlaceable(leads: seq<Lead>, advisors: seq<Advisor>) {
    forall i :: 0 <= i < |leads| ==> Placeable(leads[i], advisors)
  }

  lemma AllPlaceableStep(leads: seq<Lead>, advisors: seq<Advisor>)
    requires |leads| > 0
    ensures AllPlaceable(leads, advisors) <==>
              AllPlaceable(leads[..|leads| - 1], advisors) && Placeable(leads[|leads| - 1], advisors)
  {
    assert forall i :: 0 <= i < |leads| - 1 ==> leads[..|leads| - 1][i] == leads[i];
  }

  /** The pass succeeds exactly when every lead can be placed. */
  lemma {:induction false} LoopSucceeds(leads: seq<Lead>, advisors: seq<Advisor>, initial: int)
    requires WellIndexed(advisors)
    ensures Loop(leads, advisors, initial).Ok? <==> AllPlaceable(leads, advisors)
    decreases |leads|
  {
    if |leads| > 0 {
      var n := |leads|;
      var prefix := leads[..n - 1];
      LoopSucceeds(prefix, advisors, initial);
      AllPlaceableStep(leads, advisors);
      LoopOkStep(leads, advisors, initial);
      if Loop(prefix, advisors, initial).Ok? {
        var prev := Loop(prefix, advisors, initial).value;
        PickAdvisorSucceeds(prev, leads[n - 1]);
        assert forall a :: 0 <= a < |advisors| ==> SameAdvisor(prev.advisors[a], advisors[a]);
        PlaceableKept(leads[n - 1], advisors, prev.advisors);
      }
    }
  }

  function AllocateRoundRobin(leads: seq<Lead>, advisors: seq<Advisor>): (r: Result<Allocation>)
    requires WellIndexed(advisors)
    ensures r.Ok? <==> AllPlaceable(leads, advisors)
    ensures r.Ok? ==> Conserves(advisors, leads, r.value.leads, r.value.advisors)
    ensures r.Ok? ==> RespectsPortfolio(r.value.leads, advisors)
    ensures r.Ok? ==> PicksLeastRecent(leads, advisors, r.value.leads, NeverAllocated)
    ensures r.Ok? ==> forall a :: 0 <= a < |advisors| ==>
                        r.value.advisors[a].lastAllocatedId == LastLeadId(r.value.leads, a, NeverAllocated)
    ensures |leads| == 0 ==> r.Ok? && |r.value.advisors| == |advisors|
                             && forall a :: 0 <= a < |advisors| ==> r.value.advisors[a].lastAllocatedId == NeverAllocated
  {
    LoopSucceeds(leads, advisors, NeverAllocated);
    var run :- Loop(leads, advisors, NeverAllocated);
    LoopPicksLeastRecent(leads, advisors, NeverAllocated);
    Ok(Allocation(run.leads, run.advisors))
  }

  // ----------------------------------------------------------------- fairness

  /** The cursor is `initial` for an advisor that took no lead, else the id
      of one of the leads it took. */
  lemma {:induction false} LastLeadIdIsSomeLead(leads: seq<Lead>, a: nat, initial: int)
    ensures Allotted(leads, a) == 0 ==> LastLeadId(leads, a, initial) == initial
    ensures Allotted(leads, a) > 0 ==>
              exists m :: 0 <= m < |leads| && leads[m].allocatedCa == Some(a) && leads[m].leadId == LastLeadId(leads, a, initial)
  {
    if |leads| > 0 {
      var n := |leads|;
      LastLeadIdIsSomeLead(leads[..n - 1], a, initial);
      if leads[n - 1].allocatedCa != Some(a) && Allotted(leads, a) > 0 {
        var m :| 0 <= m < n - 1 && leads[..n - 1][m].allocatedCa == Some(a)
                 && leads[..n - 1][m].leadId == LastLeadId(leads[..n - 1], a, initial);
        assert leads[m] == leads[..n - 1][m];
      }
    }
  }

  /** The setting of the fairness properties: every lead belongs to one
      portfolio `p` that has a queue, and arrives while every advisor of
      `p` is in working hours. */
  ghost predicate SteadyShift(leads: seq<Lead>, advisors: seq<Advisor>, p: string) {
    && (p == Domestic || p == Canada)
    && (forall i :: 0 <= i < |leads| ==> leads[i].portfolio == p)
    && (forall i, a :: 0 <= i < |leads| && 0 <= a < |advisors| && advisors[a].portfolio == p ==>
          OnDuty(leads[i], advisors[a]))
  }

  /** Every lead id lies above the reset cursor `initial`. */
  ghost predicate IdsAbove(leads: seq<Lead>, initial: int) {
    forall m :: 0 <= m < |leads| ==> initial < leads[m].leadId
  }

  ghost predicate IncreasingIds(leads: seq<Lead>) {
    forall i, j :: 0 <= i < j < |leads| ==> leads[i].leadId < leads[j].leadId
  }

  /** `out` is `prev` with one more lead, taken by `w`. */
  ghost predicate Appends(prev: seq<Lead>, out: seq<Lead>, w: nat) {
    |out| == |prev| + 1 && out[..|prev|] == prev && out[|prev|].allocatedCa == Some(w)
  }

  /** Advisor `w` of portfolio `p` holds the least cursor of the portfolio. */
  ghost predicate LeastCursor(prev: seq<Lead>, advisors: seq<Advisor>, p: string, w: nat, initial: int) {
    && w < |advisors| && advisors[w].portfolio == p
    && forall b :: 0 <= b < |advisors| && advisors[b].portfolio == p ==> LastLeadId(prev, w, initial) <= LastLeadId(prev, b, initial)
  }

  /** Every advisor of portfolio `p` took at least one lead of `s`. */
  ghost predicate AllServed(s: seq<Lead>, advisors: seq<Advisor>, p: string) {
    forall a :: 0 <= a < |advisors| && advisors[a].portfolio == p ==> Allotted(s, a) > 0
  }

  /** No advisor takes a second lead before all advisors of `p` took one. */
  ghost predicate ServedBeforeRepeat(out: seq<Lead>, advisors: seq<Advisor>, p: string) {
    forall i, j :: 0 <= i < j < |out| && out[i].allocatedCa == out[j].allocatedCa ==> AllServed(out[..j], advisors, p)
  }

  lemma {:induction false} RepeatStep(prev: seq<Lead>, out: seq<Lead>, advisors: seq<Advisor>, p: string, w: nat, initial: int)
    requires Appends(prev, out, w) && LeastCursor(prev, advisors, p, w, initial)
    requires IdsAbove(prev, initial)
    requires ServedBeforeRepeat(prev, advisors, p)
    ensures ServedBeforeRepeat(out, advisors, p)
  {
    var n := |prev|;
    forall i, j | 0 <= i < j < |out| && out[i].allocatedCa == out[j].allocatedCa
      ensures AllServed(out[..j], advisors, p)
    {
      if j < n {
        assert out[..j] == prev[..j] && out[i] == prev[i] && out[j] == prev[j];
      } else {
        assert out[..j] == prev && out[i] == prev[i];
        AllottedPositive(prev, w);
        LastLeadIdIsSomeLead(prev, w, initial);
        forall a | 0 <= a < |advisors| && advisors[a].portfolio == p
          ensures Allotted(prev, a) > 0
        {
          LastLeadIdIsSomeLead(prev, a, initial);
        }
      }
    }
  }

  /** Every lead of `out` went to an advisor of `p` that held the least
      cursor of `p`, the cursors being the ones the leads before it left. */
  ghost predicate LeastCursorTrace(out: seq<Lead>, advisors: seq<Advisor>, p: string, initial: int) {
    forall n :: 0 <= n < |out| ==>
      out[n].allocatedCa.Some? && LeastCursor(out[..n], advisors, p, out[n].allocatedCa.value, initial)
  }

  /** A least-cursor trace is its shorter trace plus one least-cursor lead. */
  lemma TracePrefix(out: seq<Lead>, advisors: seq<Advisor>, p: string, initial: int)
    requires |out| > 0 && LeastCursorTrace(out, advisors, p, initial)
    ensures LeastCursorTrace(out[..|out| - 1], advisors, p, initial)
    ensures Appends(out[..|out| - 1], out, out[|out| - 1].allocatedCa.value)
    ensures LeastCursor(out[..|out| - 1], advisors, p, out[|out| - 1].allocatedCa.value, initial)
  {
    var prev := out[..|out| - 1];
    forall n | 0 <= n < |prev|
      ensures prev[n] == out[n] && prev[..n] == out[..n]
    {
    }
  }

  lemma {:induction false} TraceServedBeforeRepeat(out: seq<Lead>, advisors: seq<Advisor>, p: string, initial: int)
    requires LeastCursorTrace(out, advisors, p, initial) && IdsAbove(out, initial)
    ensures ServedBeforeRepeat(out, advisors, p)
    decreases |out|
  {
    if |out| > 0 {
      var prev := out[..|out| - 1];
      TracePrefix(out, advisors, p, initial);
      TraceServedBeforeRepeat(prev, advisors, p, initial);
      RepeatStep(prev, out, advisors, p, out[|out| - 1].allocatedCa.value, initial);
    }
  }

  /** Serving the least cursor serves every advisor of the portfolio once
      before any of them twice, provided every lead id lies above the reset
      cursor: when lead `j` goes to an advisor that an earlier lead already
      went to, every advisor of the portfolio has taken at least one of the
      leads before `j`. */
  lemma {:induction false} NoRepeatBeforeAllServed(out: seq<Lead>, advisors: seq<Advisor>, p: string, initial: int)
    requires LeastCursorTrace(out, advisors, p, initial)
    requires forall m :: 0 <= m < |out| ==> initial < out[m].leadId
    ensures forall i, j :: 0 <= i < j < |out| && out[i].allocatedCa == out[j].allocatedCa ==>
              forall a :: 0 <= a < |advisors| && advisors[a].portfolio == p ==> Allotted(out[..j], a) > 0
  {
    TraceServedBeforeRepeat(out, advisors, p, initial);
  }

  /** The balance invariant: counts within one of each other, and a larger
      count always comes with a later cursor. */
  ghost predicate Balanced(out: seq<Lead>, advisors: seq<Advisor>, p: string, initial: int) {
    forall a, b :: 0 <= a < |advisors| && 0 <= b < |advisors| && advisors[a].portfolio == p && advisors[b].portfolio == p ==>
      && Allotted(out, a) <= Allotted(out, b) + 1
      && (Allotted(out, a) > Allotted(out, b) ==> LastLeadId(out, a, initial) > LastLeadId(out, b, initial))
  }

  lemma {:induction false} BalanceStep(prev: seq<Lead>, out: seq<Lead>, advisors: seq<Advisor>, p: string, w: nat, initial: int)
    requires Appends(prev, out, w) && LeastCursor(prev, advisors, p, w, initial)
    requires initial < out[|prev|].leadId
    requires forall m :: 0 <= m < |prev| ==> prev[m].leadId < out[|prev|].leadId
    requires Balanced(prev, advisors, p, initial)
    ensures Balanced(out, advisors, p, initial)
  {
    var id := out[|prev|].leadId;
    forall a | 0 <= a < |advisors|
      ensures LastLeadId(prev, a, initial) < id
      ensures Allotted(out, a) == Allotted(prev, a) + (if a == w then 1 else 0)
      ensures LastLeadId(out, a, initial) == if a == w then id else LastLeadId(prev, a, initial)
    {
      LastLeadIdIsSomeLead(prev, a, initial);
    }
  }

  lemma {:induction false} TraceBalanced(out: seq<Lead>, advisors: seq<Advisor>, p: string, initial: int)
    requires LeastCursorTrace(out, advisors, p, initial) && IncreasingIds(out) && IdsAbove(out, initial)
    ensures Balanced(out, advisors, p, initial)
    decreases |out|
  {
    if |out| > 0 {
      var prev := out[..|out| - 1];
      TracePrefix(out, advisors, p, initial);
      TraceBalanced(prev, advisors, p, initial);
      BalanceStep(prev, out, advisors, p, out[|out| - 1].allocatedCa.value, initial);
    }
  }

  /** Serving the least cursor, with increasing lead ids above the reset
      cursor, keeps any two advisors' lead counts within one of each other,
      so each takes the floor or the ceiling of the average. */
  lemma {:induction false} BalancedCounts(out: seq<Lead>, advisors: seq<Advisor>, p: string, initial: int)
    requires LeastCursorTrace(out, advisors, p, initial) && IncreasingIds(out)
    requires forall m :: 0 <= m < |out| ==> initial < out[m].leadId
    ensures forall a, b :: 0 <= a < |advisors| && 0 <= b < |advisors| && advisors[a].portfolio == p && advisors[b].portfolio == p
              ==> Allotted(out, a) <= Allotted(out, b) + 1
  {
    TraceBalanced(out, advisors, p, initial);
  }

  /** Under a steady shift every pick of the pass holds the least cursor of
      the whole portfolio. */
  lemma SteadyShiftGivesLeastCursorTrace(leads: seq<Lead>, advisors: seq<Advisor>, p: string, out: seq<Lead>, initial: int)
    requires SteadyShift(leads, advisors, p) && PicksLeastRecent(leads, advisors, out, initial)
    ensures LeastCursorTrace(out, advisors, p, initial)
  {
    forall n | 0 <= n < |out|
      ensures out[n].allocatedCa.Some? && LeastCursor(out[..n], advisors, p, out[n].allocatedCa.value, initial)
    {
      assert PickedLeastRecent(leads[n], advisors, out[..n], out[n].allocatedCa, initial);
      forall b | 0 <= b < |advisors| && advisors[b].portfolio == p
        ensures Eligible(leads[n], advisors, b) && OnDuty(leads[n], advisors[b])
      {
      }
    }
  }

  /** Round robin, when every lead is of one portfolio whose advisors are
      all in working hours and no lead id is negative, serves every advisor
      of the portfolio once before it serves any of them twice. */
  lemma RoundRobinServesAllBeforeRepeat(leads: seq<Lead>, advisors: seq<Advisor>, p: string)
    requires WellIndexed(advisors) && SteadyShift(leads, advisors, p)
    requires forall m :: 0 <= m < |leads| ==> leads[m].leadId >= 0
    requires AllocateRoundRobin(leads, advisors).Ok?
    ensures var out := AllocateRoundRobin(leads, advisors).value.leads;
            forall i, j :: 0 <= i < j < |out| && out[i].allocatedCa == out[j].allocatedCa ==>
              forall a :: 0 <= a < |advisors| && advisors[a].portfolio == p ==> Allotted(out[..j], a) > 0
  {
    var out := AllocateRoundRobin(leads, advisors).value.leads;
    SteadyShiftGivesLeastCursorTrace(leads, advisors, p, out, NeverAllocated);
    assert forall m :: 0 <= m < |out| ==> out[m] == Assign(leads[m], out[m].allocatedCa.value);
    NoRepeatBeforeAllServed(out, advisors, p, NeverAllocated);
  }

  /** Round robin under the same conditions, with increasing lead ids,
      gives any two advisors of the portfolio lead counts within one of
      each other. */
  lemma RoundRobinBalances(leads: seq<Lead>, advisors: seq<Advisor>, p: string)
    requires WellIndexed(advisors) && SteadyShift(leads, advisors, p) && IncreasingIds(leads)
    requires forall m :: 0 <= m < |leads| ==> leads[m].leadId >= 0
    requires AllocateRoundRobin(leads, advisors).Ok?
    ensures var out := AllocateRoundRobin(leads, advisors).value.leads;
            forall a, b :: 0 <= a < |advisors| && 0 <= b < |advisors| && advisors[a].portfolio == p && advisors[b].portfolio == p
              ==> Allotted(out, a) <= Allotted(out, b) + 1
  {
    var out := AllocateRoundRobin(leads, advisors).value.leads;
    SteadyShiftGivesLeastCursorTrace(leads, advisors, p, out, NeverAllocated);
    assert forall m :: 0 <= m < |out| ==> out[m] == Assign(leads[m], out[m].allocatedCa.value);
    assert IncreasingIds(out);
    BalancedCounts(out, advisors, p, NeverAllocated);
  }

  // ------------------------------------------------------ negative lead ids

  /** Two leads of one portfolio shared by exactly two advisors, both in
      working hours for both leads. */
  ghost predicate TwoOnDuty(leads: seq<Lead>, advisors: seq<Advisor>) {
    && WellIndexed(advisors) && |advisors| == 2 && |leads| == 2
    && advisors[0].portfolio == advisors[1].portfolio
    && SteadyShift(leads, advisors, advisors[0].portfolio)
  }

  /** Under a steady shift every lead can be placed. */
  lemma SteadyShiftPlaceable(leads: seq<Lead>, advisors: seq<Advisor>, p: string, a: nat)
    requires SteadyShift(leads, advisors, p) && a < |advisors| && advisors[a].portfolio == p
    ensures AllPlaceable(leads, advisors)
  {
    forall i | 0 <= i < |leads| ensures Placeable(leads[i], advisors) {
      assert Eligible(leads[i], advisors, a);
      forall j | Eligible(leads[i], advisors, j) ensures Calendar.TimezoneOf(advisors[j].location).Some? {
        assert OnDuty(leads[i], advisors[j]);
      }
    }
  }

  /** The reset value -1 sorts first only while lead ids are not below it.
      When the first lead's id is below -1, the advisor who takes it gets a
      cursor below the other advisor's -1 and so takes the second lead as
      well, while the other advisor, equally in hours, takes none. */
  lemma NegativeIdRepeatsBeforeAllServed(leads: seq<Lead>, advisors: seq<Advisor>)
    requires TwoOnDuty(leads, advisors) && leads[0].leadId < NeverAllocated
    ensures AllocateRoundRobin(leads, advisors).Ok?
    ensures var out := AllocateRoundRobin(leads, advisors).value.leads;
            && out[0].allocatedCa == out[1].allocatedCa
            && exists a :: 0 <= a < 2 && Allotted(out, a) == 0
  {
    SteadyShiftPlaceable(leads, advisors, advisors[0].portfolio, 0);
    var r := AllocateRoundRobin(leads, advisors).value;
    assert r.leads[0].leadId == leads[0].leadId;
    TwoLeadsRepeat(leads, advisors, r.leads, NeverAllocated);
  }

  /** The cursors after the first of two leads: its advisor holds the
      lead's id and the other advisor still holds the reset cursor. */
  lemma {:induction false} CursorsAfterFirst(leads: seq<Lead>, advisors: seq<Advisor>, out: seq<Lead>, initial: int)
    requires TwoOnDuty(leads, advisors) && PicksLeastRecent(leads, advisors, out, initial)
    requires out[0].leadId == leads[0].leadId
    ensures out[0].allocatedCa.Some? && out[0].allocatedCa.value < 2
    ensures LastLeadId(out[..1], out[0].allocatedCa.value, initial) == leads[0].leadId
    ensures LastLeadId(out[..1], 1 - out[0].allocatedCa.value, initial) == initial
    ensures forall a :: 0 <= a < 2 ==> Allotted(out, a) == (if out[0].allocatedCa == Some(a) then 1 else 0)
                                                          + (if out[1].allocatedCa == Some(a) then 1 else 0)
  {
    assert PickedLeastRecent(leads[0], advisors, out[..0], out[0].allocatedCa, initial);
    var prev := out[..1];
    assert prev == [out[0]] && prev[..0] == [] && out[..2] == out;
    forall a | 0 <= a < 2
      ensures Allotted(out, a) == (if out[0].allocatedCa == Some(a) then 1 else 0) + (if out[1].allocatedCa == Some(a) then 1 else 0)
    {
      assert Allotted(prev, a) == Allotted(prev[..0], a) + (if prev[0].allocatedCa == Some(a) then 1 else 0);
    }
  }

  /** With the reset cursor below the first lead's id, the two leads go to
      different advisors. */
  lemma {:induction false} TwoLeadsSpread(leads: seq<Lead>, advisors: seq<Advisor>, out: seq<Lead>, initial: int)
    requires TwoOnDuty(leads, advisors) && PicksLeastRecent(leads, advisors, out, initial)
    requires out[0].leadId == leads[0].leadId && initial < leads[0].leadId
    ensures out[0].allocatedCa != out[1].allocatedCa
    ensures forall a :: 0 <= a < 2 ==> Allotted(out, a) == 1
  {
    CursorsAfterFirst(leads, advisors, out, initial);
    var w := out[0].allocatedCa.value;
    assert PickedLeastRecent(leads[1], advisors, out[..1], out[1].allocatedCa, initial);
    assert Eligible(leads[1], advisors, 1 - w) && OnDuty(leads[1], advisors[1 - w]);
  }

  /** With the reset cursor above the first lead's id, the first lead's
      advisor takes both leads. */
  lemma {:induction false} TwoLeadsRepeat(leads: seq<Lead>, advisors: seq<Advisor>, out: seq<Lead>, initial: int)
    requires TwoOnDuty(leads, advisors) && PicksLeastRecent(leads, advisors, out, initial)
    requires out[0].leadId == leads[0].leadId && leads[0].leadId < initial
    ensures out[0].allocatedCa == out[1].allocatedCa
    ensures exists a :: 0 <= a < 2 && Allotted(out, a) == 0
  {
    CursorsAfterFirst(leads, advisors, out, initial);
    var w := out[0].allocatedCa.value;
    assert PickedLeastRecent(leads[1], advisors, out[..1], out[1].allocatedCa, initial);
    assert Eligible(leads[1], advisors, w) && OnDuty(leads[1], advisors[w]);
    assert Allotted(out, 1 - w) == 0;
  }

  /** Monday 10:00 on the reference clock, inside Adelaide's hours. */
  const MondayTen: int := Calendar.MinutesPerDay + 10 * 60

  /** An instance: two Domestic advisors in Adelaide and two Domestic leads
      on Monday at 10:00 with ids -5 and -4. */
  lemma NegativeIdExample()
    ensures var advisors := [Advisor(0, Domestic, "Adelaide", 0.0, 0), Advisor(1, Domestic, "Adelaide", 0.0, 0)];
            var leads := [Lead(-5, MondayTen, Domestic, map[], None), Lead(-4, MondayTen, Domestic, map[], None)];
            TwoOnDuty(leads, advisors) && leads[0].leadId < NeverAllocated && IncreasingIds(leads)
  {
    assert Calendar.IsInWorkingHours(MondayTen, "Adelaide") == Some(true);
  }

  /** A reset cursor below every lead id, so that an advisor who has taken
      no lead always sorts before one who has: -1, as in the source, when
      no id is negative, else one below the least id. */
  function FreshBelow(leads: seq<Lead>): (c: int)
    ensures c <= NeverAllocated
    ensures forall m :: 0 <= m < |leads| ==> c < leads[m].leadId
    ensures (forall m :: 0 <= m < |leads| ==> leads[m].leadId >= 0) ==> c == NeverAllocated
  {
    if |leads| == 0 then NeverAllocated
    else
      var c := FreshBelow(leads[..|leads| - 1]);
      if leads[|leads| - 1].leadId <= c then leads[|leads| - 1].leadId - 1 else c
  }

  /** Round robin with the reset cursor below every lead id.  It is the
      source's pass whenever no lead id is negative. */
  function AllocateRoundRobinFreshFirst(leads: seq<Lead>, advisors: seq<Advisor>): (r: Result<Allocation>)
    requires WellIndexed(advisors)
    ensures r.Ok? <==> AllPlaceable(leads, advisors)
    ensures r.Ok? ==> Conserves(advisors, leads, r.value.leads, r.value.advisors)
    ensures r.Ok? ==> RespectsPortfolio(r.value.leads, advisors)
    ensures r.Ok? ==> PicksLeastRecent(leads, advisors, r.value.leads, FreshBelow(leads))
  {
    LoopSucceeds(leads, advisors, FreshBelow(leads));
    var run :- Loop(leads, advisors, FreshBelow(leads));
    LoopPicksLeastRecent(leads, advisors, FreshBelow(leads));
    Ok(Allocation(run.leads, run.advisors))
  }

  /** The corrected pass is the source's pass when no lead id is negative. */
  lemma FreshFirstAgrees(leads: seq<Lead>, advisors: seq<Advisor>)
    requires WellIndexed(advisors)
    requires forall m :: 0 <= m < |leads| ==> leads[m].leadId >= 0
    ensures AllocateRoundRobinFreshFirst(leads, advisors) == AllocateRoundRobin(leads, advisors)
  {
  }

  /** With the corrected reset, a steady shift serves every advisor once
      before any twice, whatever the sign of the lead ids. */
  lemma FreshFirstServesAllBeforeRepeat(leads: seq<Lead>, advisors: seq<Advisor>, p: string)
    requires WellIndexed(advisors) && SteadyShift(leads, advisors, p)
    requires AllocateRoundRobinFreshFirst(leads, advisors).Ok?
    ensures var out := AllocateRoundRobinFreshFirst(leads, advisors).value.leads;
            forall i, j :: 0 <= i < j < |out| && out[i].allocatedCa == out[j].allocatedCa ==>
              forall a :: 0 <= a < |advisors| && advisors[a].portfolio == p ==> Allotted(out[..j], a) > 0
  {
    var out := AllocateRoundRobinFreshFirst(leads, advisors).value.leads;
    SteadyShiftGivesLeastCursorTrace(leads, advisors, p, out, FreshBelow(leads));
    assert forall m :: 0 <= m < |out| ==> out[m] == Assign(leads[m], out[m].allocatedCa.value);
    NoRepeatBeforeAllServed(out, advisors, p, FreshBelow(leads));
  }

  /** With the corrected reset, a steady shift with increasing lead ids
      keeps lead counts within one, whatever the sign of the ids. */
  lemma FreshFirstBalances(leads: seq<Lead>, advisors: seq<Advisor>, p: string)
    requires WellIndexed(advisors) && SteadyShift(leads, advisors, p) && IncreasingIds(leads)
    requires AllocateRoundRobinFreshFirst(leads, advisors).Ok?
    ensures var out := AllocateRoundRobinFreshFirst(leads, advisors).value.leads;
            forall a, b :: 0 <= a < |advisors| && 0 <= b < |advisors| && advisors[a].portfolio == p && advisors[b].portfolio == p
              ==> Allotted(out, a) <= Allotted(out, b) + 1
  {
    var out := AllocateRoundRobinFreshFirst(leads, advisors).value.leads;
    SteadyShiftGivesLeastCursorTrace(leads, advisors, p, out, FreshBelow(leads));
    assert forall m :: 0 <= m < |out| ==> out[m] == Assign(leads[m], out[m].allocatedCa.value);
    assert IncreasingIds(out);
    BalancedCounts(out, advisors, p, FreshBelow(leads));
  }

  /** With the corrected reset the two advisors of the same setting take
      one lead each, whatever the ids. */
  lemma FreshFirstServesBothAdvisors(leads: seq<Lead>, advisors: seq<Advisor>)
    requires TwoOnDuty(leads, advisors)
    ensures AllocateRoundRobinFreshFirst(leads, advisors).Ok?
    ensures var out := AllocateRoundRobinFreshFirst(leads, advisors).value.leads;
            && out[0].allocatedCa != out[1].allocatedCa
            && forall a :: 0 <= a < 2 ==> Allotted(out, a) == 1
  {
    SteadyShiftPlaceable(leads, advisors, advisors[0].portfolio, 0);
    var r := AllocateRoundRobinFreshFirst(leads, advisors).value;
    var c := FreshBelow(leads);
    assert r.leads[0].leadId == leads[0].leadId;
    assert PicksLeastRecent(leads, advisors, r.leads, c);
    TwoLeadsSpread(leads, advisors, r.leads, c);
  }
}
